=== FILE: README.md ===
# Face-recognition attendance: liveness, blink gate and helpers in Dafny

This project models the decision logic of a webcam attendance system. A camera loop recognises
enrolled students, asks each recognised student to pass a randomly chosen head-movement liveness
challenge, and then records attendance when the student blinks. Around that loop sit small helpers:

- a configuration clamp and a frame-rate table;
- the distance-to-percentage match arithmetic;
- calendar and absence-streak features for the attendance predictor, and its reason text;
- the registration window's encoding average, semester list and form validation.

Everything is modelled as pure functions over immutable records:

- The clock is an explicit `now: real` argument.
- The random challenge is an argument drawn from the four challenge names.
- The numbers produced by image libraries are real inputs. These are the spoof score of a face crop,
  the eye aspect ratio, face distances and the medians of those distances.
- Floating-point arithmetic is exact real arithmetic.
- Dates are proleptic Gregorian day ordinals: day 1 is Monday, 1 January of year 1.

Modules (the camera loop of Backend/blink_detection.py is split in two, and two modules are shared):

| module | file | contents |
|---|---|---|
| `Outcomes` | `outcomes.dfy` | `Option`, `Result` and the error cases (the exceptions the source raises) |
| `Seqs` | `seqs.dfy` | the "last n elements" slice used by the movement history and the predictor |
| `Config` | `config.dfy` | constants, `validate_config`, `get_performance_settings` |
| `AntiSpoof` | `anti_spoof.dfy` | the per-user liveness challenge state machine |
| `FrameLoop` | `frame_loop.dfy` | the camera loop's per-frame bookkeeping, plus calibration |
| `BlinkGate` | `blink_gate.dfy` | the per-face identity cut-off, liveness gate, blink counter and confirmations |
| `Recognition` | `recognition.dfy` | the recognition utilities' accuracy, best-match selection and mean encoding |
| `Attendance` | `attendance.dfy` | the predictor's calendar, streak, feature and reason helpers |
| `Registration` | `registration.dfy` | the registration window's average, semester labels and detail validation |

The frame loop's per-frame bookkeeping covers the sampling table, the detection cache, the stability
buffer and the no-face timer.

The central result is `BlinkGate.SecondConfirmationNeedsFreshLiveness`. Over any run of processed
faces with non-decreasing timestamps, two attendance confirmations of the same student satisfy both of
the following:

- they are more than the 10-second display time apart;
- some face of that student strictly after the first confirmation, and no later than the second,
  passed a fresh liveness challenge.

A confirmation therefore consumes the verification it was granted on.

## Model

| member | source | states |
|---|---|---|
| `Seqs.Last` | Backend/attendance_prediction.py:387-392 | The last n elements, or all of them when there are fewer; it is the same slice as the nod window at Backend/anti_spoof_detection.py:127. |
| `Config.ValidateConfig` | Backend/config.py:113-126 | Both sampling frequencies come out at least 1. Values already at least 1 are kept. An eye-aspect-ratio threshold outside [0.1, 0.5] becomes 0.25; one inside is kept. |
| `Config.ValidateConfigFixesExactlyInvalid` | Backend/config.py:118-126 | Validation leaves settings unchanged exactly when they are already valid, and it is idempotent. |
| `Config.DefaultsAreValidated` | Backend/config.py:118-126 | The shipped constants pass validation untouched. |
| `Config.GetPerformanceSettings` | Backend/config.py:130-150 | Below 15 fps: frequencies 8/6 at 320x240 with optimisation. Above 25 fps: 3/2 at 480x360 without. From 15 to 25 inclusive: the configured values. |
| `Config.PerformanceSettingsOrdered` | Backend/config.py:134-150 | With the shipped settings, detection is sampled less often than verification, and verification at least every frame. A higher frame rate never samples less often. |
| `AntiSpoof.GetUserState` | Backend/anti_spoof_detection.py:16-30 | A known user's record is returned unchanged. An unseen user gets the initial record added to the store. Nothing else changes, and record invariants are kept. |
| `AntiSpoof.ChallengeText` | Backend/anti_spoof_detection.py:51-59 | Each of the four challenge names maps to its fixed instruction. Any other value, including no challenge, gets "Follow the instruction". |
| `AntiSpoof.ChallengeTextIdentifiesChallenge` | Backend/anti_spoof_detection.py:51-59 | The four instructions are pairwise distinct and differ from the default, so the text determines the challenge. |
| `AntiSpoof.StartChallenge` | Backend/anti_spoof_detection.py:32-49 | Within 30 s of a verification, nothing changes and no text is returned. Otherwise: active, start time now, the drawn challenge, cleared history, baseline, counter and flags; returns that challenge's text. |
| `AntiSpoof.StartChallengeForUser` | Backend/anti_spoof_detection.py:32-49 | On the store, only the user's record changes, created if needed. No text is returned exactly when the existing record was verified within the cooldown; then the store is untouched. |
| `AntiSpoof.RearmSuppressionIdempotent` | Backend/anti_spoof_detection.py:36-38 | Two requests inside the cooldown of a verification both get no challenge and leave the store as it was. |
| `AntiSpoof.PhotoSpoofScore` | Backend/anti_spoof_detection.py:61-64 | An empty face region scores exactly 0.0. A non-empty one scores what the image statistics give. |
| `AntiSpoof.Sighting` | Backend/anti_spoof_detection.py:91-96 | The sighting's centroid is the floor-halved sum of the box edges on each axis. Its size is the box area and its time is now. |
| `AntiSpoof.NodMeansVerticalSpread` | Backend/anti_spoof_detection.py:125-131 | NOD_HEAD is satisfied exactly when two of the last five sightings differ in height by more than 12 pixels. |
| `AntiSpoof.PushPosition` | Backend/anti_spoof_detection.py:105-107 | The history grows by one while it holds fewer than 10 entries and otherwise keeps its length. Its contents are always the newest suffix of the old history followed by the new sighting. |
| `AntiSpoof.AnalyzeMovement` | Backend/anti_spoof_detection.py:87-134 | The first sighting after a start sets the baseline and the history to it and reports no movement. Later sightings append, evicting the oldest beyond 10. Under 3 entries, no movement. Otherwise the challenge's rule is judged against the baseline. |
| `AntiSpoof.TurnLeftScenario` | Backend/anti_spoof_detection.py:116-118 | With the baseline at x = 300, a TURN_LEFT sighting at x = 285 counts; 295 and 288 do not. The comparison is strict and against the baseline. |
| `AntiSpoof.CombinedScoreThreshold` | Backend/anti_spoof_detection.py:155-160 | With movement, any non-negative spoof score reaches the 0.4 threshold. Without movement, the score passes exactly when the spoof score is at least 2/3. |
| `AntiSpoof.LeakyCount` | Backend/anti_spoof_detection.py:159-163 | The counter rises by one exactly when the combined score reaches 0.4. Otherwise it falls by one, stopping at 0. It never rises by more than one. |
| `AntiSpoof.Progress` | Backend/anti_spoof_detection.py:173-174 | Progress is a percentage in [0, 100] and is 100 once the counter reaches 8. |
| `AntiSpoof.ScoreFrame` | Backend/anti_spoof_detection.py:149-178 | The combined score blends the spoof score with this frame's movement, and the counter follows the leaky rule. Verification fires iff the counter reaches 8 while the head moved; then the flag is set, the time stamped and the challenge closed. Otherwise only the counter and history change. |
| `AntiSpoof.VerifyLiveness` | Backend/anti_spoof_detection.py:136-178 | An inactive challenge returns "No active challenge" and changes nothing. A timed-out one is closed and returns the timeout status, unscored. Otherwise the frame is scored: the counter moves by the leaky rule, and verification fires iff the counter is at least 8 and this frame moved. Verification stamps the time and closes the challenge. |
| `AntiSpoof.VerifyUserLiveness` | Backend/anti_spoof_detection.py:136-178 | On the store, only the user's record changes, created if needed. The store's records stay well formed. |
| `AntiSpoof.RealFrameCountBoundedByFrames` | Backend/anti_spoof_detection.py:159-163 | Over any sequence of frames the counter grows by at most the number of frames. |
| `AntiSpoof.CountBoundedSinceChallenge` | Backend/anti_spoof_detection.py:40-49 | After a fresh challenge, the counter never exceeds the number of frames verified since. |
| `AntiSpoof.TurnedLeftFrame` | Backend/anti_spoof_detection.py:150-171 | A frame twenty pixels left of the baseline, with spoof score 0.9, always counts. It verifies exactly when the count reaches 8 with at least 3 sightings. |
| `AntiSpoof.EightGoodFramesVerify` | Backend/anti_spoof_detection.py:150-171 | Eight good TURN_LEFT frames after a fresh challenge verify on the eighth frame and not before, even though the first two frames only build the history. |
| `AntiSpoof.IsUserVerified` | Backend/anti_spoof_detection.py:180-194 | An unseen user is not verified and gets no record. Otherwise the answer is true iff verified less than 60 s ago, and an expired verification is cleared. |
| `AntiSpoof.ResetUserVerification` | Backend/anti_spoof_detection.py:213-217 | A known user's verified and active flags are cleared. An unknown user is ignored. |
| `AntiSpoof.ResetThenRearm` | Backend/anti_spoof_detection.py:36-38 | After a reset the user reads as unverified, and a new challenge is armed at once whatever the cooldown. |
| `FrameLoop.SamplingFrequencies` | Backend/blink_detection.py:182-190 | Above 30 fps: (6, 4). Above 20 fps: (5, 3). Otherwise: (4, 2). |
| `FrameLoop.SamplingFrequenciesOrdered` | Backend/blink_detection.py:182-190 | Detection frequency always exceeds verification frequency, both are at least 2, and both are non-decreasing in the frame rate. |
| `FrameLoop.FreshConfidence` | Backend/blink_detection.py:233 | A fresh detection of n faces has confidence min(100, 80 + 10n), always in [80, 100]. |
| `FrameLoop.DetectFrame` | Backend/blink_detection.py:198-243 | A face is present exactly when the detection found locations and encodings. Then the cache holds them, valid, stamped now, with fresh confidence, and the last-face time is now. Otherwise cache and time are unchanged. |
| `FrameLoop.ReuseCache` | Backend/blink_detection.py:244-252 | On an unsampled frame, a face is present iff the cache is valid and under 1.2 s old. Only the confidence changes: it becomes max(0, confidence - 20 x age), so it never goes negative or up. The validity flag is never cleared. |
| `FrameLoop.AgeingKeepsCache` | Backend/blink_detection.py:244-252 | Any number of unsampled frames change only the confidence: the faces, timestamp and validity of the last detection survive however old they get. |
| `FrameLoop.PushStability` | Backend/blink_detection.py:254-257 | The buffer is the previous buffer plus this frame, truncated to its last two entries. |
| `FrameLoop.StableIffRecentFace` | Backend/blink_detection.py:254-261 | Faces are stable exactly when this frame or the previous one had a face present. |
| `FrameLoop.UpdateNoFace` | Backend/blink_detection.py:263-272 | A stable frame hides the message and stops the timer. The first unstable frame starts the timer. Later unstable frames show the message once 2 s have passed, and it stays shown. |
| `FrameLoop.NoFaceHysteresis` | Backend/blink_detection.py:263-272 | From start-up, the timer runs from the first frame of the trailing run of unstable frames. The message is shown exactly when that run spans at least 2 s, and a stable last frame clears it. |
| `FrameLoop.FrameStep` | Backend/blink_detection.py:180-308 | Detection runs only on due frames. Presence feeds the stability buffer. Faces are processed iff there are enrolled encodings, faces are stable and the cache is valid, and then the verification counter advances. The processed faces are the cache's. On a due frame the cache and the last-face time are what `DetectFrame` makes of this frame's detection; on any other frame the cache is what `ReuseCache` leaves, so its confidence decays to max(0, c - 20 x age). The no-face timer and message follow `UpdateNoFace` on the frame's stability. |
| `FrameLoop.DetectionOnlyWhenDue` | Backend/blink_detection.py:192-198 | On a frame where no detection is due, the detector's output is never consulted. |
| `FrameLoop.StaleCacheStillProcessed` | Backend/blink_detection.py:244-308 | Because ageing never invalidates the cache, a frame 2 s after the last detection still processes that detection's faces. |
| `FrameLoop.CalibrateBaselineEar` | Backend/blink_detection.py:68-99 | A failed camera read returns the default 0.25. Otherwise the result is the mean ratio over frames with a face, or 0.25 when no frame had one. |
| `FrameLoop.MeanEarWithinObserved` | Backend/blink_detection.py:93-96 | The calibrated baseline lies within the range of the observed ratios. |
| `FrameLoop.EarSumBounds` | Backend/blink_detection.py:90-91 | The accumulated ratio lies between the face count times the lowest ratio and the face count times the highest. |
| `FrameLoop.BlinkThreshold` | Backend/blink_detection.py:111 | The working threshold, 0.8 of the baseline, lies strictly between 0 and the baseline. |
| `BlinkGate.ArgMin` | Backend/blink_detection.py:320 | The index of the first smallest distance. |
| `BlinkGate.IdentifyFace` | Backend/blink_detection.py:312-324 | With no enrolled encodings: Unknown, index -1. Otherwise the index is the first nearest encoding, and the accuracy is (1 - d) x 100 within tolerance 0.6, else 0. The face is named exactly when d is at most 0.5. |
| `BlinkGate.MatchDlibFace` | Backend/blink_detection.py:430-443 | The first landmark face whose centre is within 30 pixels of the box centre on both axes. None exactly when there is no such face. |
| `BlinkGate.BlinkStep` | Backend/blink_detection.py:453-472 | A closed eye extends the run. An open eye resets it. A confirmation fires exactly on an open eye after a run of at least the minimum, past the 10 s cooldown, for a known subject; it stamps the time and locks blinking. |
| `BlinkGate.BlinkScenario` | Backend/blink_detection.py:453-472 | Two closed frames then an open one fire exactly one confirmation, on the open frame. One closed frame fires nothing. |
| `BlinkGate.LivenessGate` | Backend/blink_detection.py:340-428 | An Unknown face may blink. For a known subject, blinking is unlocked iff the verification is current or was passed on this frame. A pass requires that no verification was current. Only the subject's challenge record changes. |
| `BlinkGate.GateFollowsChallenge` | Backend/blink_detection.py:347-381 | For a known subject, the pass is exactly the challenge machine's verdict: without a current verification, on a sampled frame or one more than half a second after the last attempt, `VerifyUserLiveness` verifies the face. A failed verification with no challenge open re-arms one through `StartChallengeForUser`; with a challenge open, and after a pass, the store is the one the verification left, so the pass's time stamp is the challenge machine's. On a frame that is not due, the store is the one the verification check left. |
| `BlinkGate.FaceTick` | Backend/blink_detection.py:310-472 | The identity is the cut-off's verdict, and a liveness pass is only ever for a known subject. |
| `BlinkGate.FaceTickFrame` | Backend/blink_detection.py:326-472 | A face changes only the records of the subject it was identified as. |
| `BlinkGate.FaceTickConfirmation` | Backend/blink_detection.py:453-471 | A confirmation names a known subject with that index's roll number, course and semester at now. It needs the cooldown, a long enough closed-eye run ended by an open eye, and a current or just-earned verification. It leaves the subject unverified, with no open challenge, blinking locked and the counter cleared. |
| `BlinkGate.FaceTickLastAttendance` | Backend/blink_detection.py:466 | The last attendance time moves only on a confirmation of that subject, and then to now. |
| `BlinkGate.FaceTickKeepsDisarmed` | Backend/blink_detection.py:345-403 | A subject with no verification on record gains one only by passing a challenge on this face. |
| `BlinkGate.FaceTickCountsOnlyWhenVerified` | Backend/blink_detection.py:430-454 | Closed-eye frames are counted for a known subject only when its verification is current or was just earned. |
| `BlinkGate.FaceTickKeepsStoreValid` | Backend/blink_detection.py:345-471 | The challenge records stay well formed: bounded history, never active and verified at once, no history without a baseline. |
| `BlinkGate.RunStep` | Backend/blink_detection.py:310 | Each session of a run of faces is the step applied to the one before. |
| `BlinkGate.TickBehaves` | Backend/blink_detection.py:310-472 | The loop's per-face step moves attendance times only to now, grants a verification only through a pass, and makes confirmations that respect the cooldown, consume the verification and need a pass when none was on record. |
| `BlinkGate.LastAttendanceNeverDrops` | Backend/blink_detection.py:457-466 | After a confirmation, the subject's last attendance time never falls below that confirmation's time. |
| `BlinkGate.DisarmedUntilLiveness` | Backend/blink_detection.py:466-471 | After a confirmation's reset, the subject stays unverified until one of its faces passes a challenge. |
| `BlinkGate.RunConfirmationsNeedFreshLiveness` | Backend/blink_detection.py:453-471 | For any step with those three properties, two confirmations of the same subject are more than 10 s apart, with a fresh pass in between. |
| `BlinkGate.SecondConfirmationNeedsFreshLiveness` | Backend/blink_detection.py:310-472 | In the camera loop, a second confirmation of a subject needs the 10 s cooldown and a liveness pass after the first confirmation. |
| `BlinkGate.PassEvents` | Backend/blink_detection.py:300-310 | A skipped frame hands over no faces. A processed frame hands over one per location paired with an encoding, as `zip` pairs them. Each carries its location, the frame's landmark faces, the frame time and the verification flag. |
| `BlinkGate.LoopEventsChronological` | Backend/blink_detection.py:300-310 | Frames taken in time order hand over their faces in time order, which is the premise of the run theorems. |
| `Recognition.RoundHundredths` | Backend/face_recognition_utils.py:25 | `round(x, 2)` on an exact value: a whole number of hundredths within 0.005 of x, a tie going to the even hundredth. |
| `Recognition.RoundMonotone` | Backend/face_recognition_utils.py:25 | Rounding never reverses an order. |
| `Recognition.RoundKeepsHundredths` | Backend/face_recognition_utils.py:25 | A value already in hundredths rounds to itself. |
| `Recognition.ExactAccuracy` | Backend/face_recognition_utils.py:24 | The unrounded score s satisfies s x t = (t - d) x 100, and lies in [0, 100] for 0 <= d <= t. |
| `Recognition.CalculateAccuracy` | Backend/face_recognition_utils.py:7-25 | A negative distance raises. A distance over the threshold scores 0. Otherwise the score is the unrounded linear score rounded to hundredths, in [0, 100]. A zero threshold with a zero distance divides by zero. |
| `Recognition.RoundingReachesBar` | Backend/face_recognition_utils.py:19-25 | The rounding decides matches at the edge: distance 0.270024 scores 54.996 unrounded but 55.0 after rounding, which meets the default 55 bar. |
| `Recognition.AccuracyEndpoints` | Backend/face_recognition_utils.py:19-25 | Distance 0 scores 100, and a distance equal to the threshold scores 0. |
| `Recognition.AccuracyMonotone` | Backend/face_recognition_utils.py:19-25 | A larger distance never scores higher, rounding included. |
| `Recognition.FirstMinimumUnique` | Backend/face_recognition_utils.py:94-99 | At most one index is the first smallest median. |
| `Recognition.SelectMatch` | Backend/face_recognition_utils.py:80-104 | A negative median raises; this is the only error. With no candidate the result is Unknown at 0. Otherwise the first strictly smallest median among non-empty people wins, and it is scored with threshold 0.6, rounded to hundredths. When that rounded score is below the accuracy threshold all three fields are Unknown; otherwise they come from the winner. |
| `Recognition.MeanEncoding` | Backend/face_recognition_utils.py:113-134 | An empty list raises, and a ragged list raises when numpy stacks it. Otherwise each component times the count equals that component's column sum. |
| `Recognition.ColumnSumOfCopies` | Backend/face_recognition_utils.py:134 | The column sum of n copies of an encoding is n times its component. |
| `Recognition.MeanOfCopies` | Backend/face_recognition_utils.py:134 | Averaging copies of one encoding gives it back. |
| `Attendance.Weekday` | Backend/attendance_prediction.py:35 | The weekday is in 0..6. |
| `Attendance.WeekdayAnchor` | Backend/attendance_prediction.py:35 | The weekday is the ordinal's offset from ordinal 1 modulo 7, so Monday is 0 exactly on ordinals 1 mod 7. |
| `Attendance.KnownWeekdays` | Backend/attendance_prediction.py:32-35 | 1 January 2024 is a Monday (0) and 5 January a Friday (4), both open; 6 January is a Saturday (5), a closed day. |
| `Attendance.WorkingDays` | Backend/attendance_prediction.py:168-181 | Returns 0 when start is at or after end. Otherwise it returns the number of open days in (start, end]. |
| `Attendance.CountOpenBounded` | Backend/attendance_prediction.py:173-181 | There are never more working days than calendar days. |
| `Attendance.CountOpenSplit` | Backend/attendance_prediction.py:173-181 | Working days over consecutive spans add up. |
| `Attendance.WeekdayShift` | Backend/attendance_prediction.py:32-35 | k days later the weekday has advanced by k mod 7. |
| `Attendance.FullWeekHasFiveWorkingDays` | Backend/attendance_prediction.py:32-35 | Any seven consecutive days hold exactly five working days. |
| `Attendance.WholeWeeks` | Backend/attendance_prediction.py:168-181 | k whole weeks hold exactly 5k working days. |
| `Attendance.TrailingAbsences` | Backend/attendance_prediction.py:404-411 | The backward walk counts exactly the absent rows after the last present row. |
| `Attendance.ConsecutiveAbsences` | Backend/attendance_prediction.py:146-157 | Each entry is the run of absences ending at that row, so it is at most i + 1. |
| `Attendance.LastPresentBefore` | Backend/attendance_prediction.py:130-142 | The date of the latest present row before row i. None exactly when there is none. |
| `Attendance.DaysSinceLastAttendance` | Backend/attendance_prediction.py:129-144 | Each entry is 0 before any present row. Otherwise it is the working days from the latest earlier present row. |
| `Attendance.OpenRowsUpTo` | Backend/attendance_prediction.py:384-386 | Every kept row is an input row dated no later than the target on an open day. Every such input row is kept. When all rows qualify, the list is unchanged. |
| `Attendance.OpenRowsConcat` | Backend/attendance_prediction.py:384-386 | The selection is a filter: selecting from a + b gives the selection from a followed by the selection from b, and one row is kept exactly when it qualifies, so order is preserved. |
| `Attendance.Rate` | Backend/attendance_prediction.py:390-392 | The mean presence is in [0, 1]; it is 1 iff all rows are present and 0 iff none is. |
| `Attendance.MaxPresentDate` | Backend/attendance_prediction.py:395-397 | The latest date among the present rows. None exactly when there is none. |
| `Attendance.LatestPresentIsMax` | Backend/attendance_prediction.py:395-397 | Any present row that no present row is later than carries the latest present date. |
| `Attendance.RecentFeatures` | Backend/attendance_prediction.py:389-411 | The rates are the presence rates of the last 7, the last 14 and all recent rows, each in [0, 1]. The streak is the maximal run of absent rows at the end: those rows are absent and the row before them is present. With a present row, the days-since value is the working days from the latest present row to the target. All rows are absent exactly when the days-since value is 15 and the streak covers every row. |
| `Attendance.TargetFeatures` | Backend/attendance_prediction.py:383-420 | The features are those of the last 30 open-day rows dated no later than the target. When there are no such rows, they are the defaults 0.7, 0.7, 0.7, 1 and 0. The weekday is the target's. |
| `Attendance.PredictAttendance` | Backend/attendance_prediction.py:316-368 | A weekend target is "College Closed" before the model or data are touched. A model that cannot be loaded, or data that cannot be read, give no prediction. A student with no rows gets the optimistic default. Otherwise the features are those for the target. |
| `Attendance.RateRemark` | Backend/attendance_prediction.py:458-462 | At most one remark, from the rate check, made exactly when its threshold applies. |
| `Attendance.DayRemark` | Backend/attendance_prediction.py:464-469 | At most one remark, from the weekday check: Monday for day 0, Friday for day 4. |
| `Attendance.StreakRemark` | Backend/attendance_prediction.py:471-475 | At most one remark, from the streak check: a long absence above 3, regular attendance at 0. |
| `Attendance.GapRemark` | Backend/attendance_prediction.py:477-481 | At most one remark, from the gap check: a long gap above 5, recent attendance at 1 or below. |
| `Attendance.Reasons` | Backend/attendance_prediction.py:456-484 | One to four remarks. A remark is made exactly when its condition applies: high rate above 0.8, low below 0.3, Monday, Friday, long absence above 3, regular at 0, long gap above 5, recent at 1 or below, and the fallback exactly when none of these applies. The remarks come in check order: rate, day, streak, gap. |
| `Attendance.RateRemarkFirst` | Backend/attendance_prediction.py:458-462 | A remarkable 7-row rate is always the first remark. |
| `Attendance.ConfidenceSuffix` | Backend/attendance_prediction.py:488-491 | The low remark iff confidence is below 0.6, the high remark iff above 0.8, otherwise none, so never both. |
| `Attendance.Texts` | Backend/attendance_prediction.py:459-484 | Each reason becomes its fixed text. |
| `Attendance.GenerateReason` | Backend/attendance_prediction.py:454-493 | "Student ", then the text of the first remark, then ", " and the second remark's text if there is one, then the confidence remark. Later remarks are dropped. |
| `Attendance.ReasonLine` | Backend/attendance_prediction.py:486-493 | The sentence from a remark list: the first one or two texts joined by ", " after "Student ", then the confidence remark. |
| `Attendance.DayRemarkPrinted` | Backend/attendance_prediction.py:454-493 | On a Monday or Friday the day remark is printed: second, after a remarkable rate, or first when the rate is unremarkable. |
| `Attendance.ReasonScenarios` | Backend/attendance_prediction.py:454-493 | A student with nothing notable gets the fallback text. A Monday regular with a high rate gets the first two of four remarks. |
| `Registration.MinLength` | Backend/registration.py:76 | The length of the shortest encoding, where zip stops. |
| `Registration.ComputeAverageEncoding` | Backend/registration.py:72-76 | An empty list raises. Otherwise there is one component per position all encodings have, and each times the count equals its column sum. |
| `Registration.AveragesAgree` | Backend/registration.py:72-76 | On equally long encodings this mean equals the recognition utilities' numpy mean. On ragged ones it truncates where the numpy mean raises. |
| `Registration.DigitChar` | Backend/registration.py:63 | A decimal digit's character. |
| `Registration.NatToString` | Backend/registration.py:63 | The decimal form of a number is a non-empty digit string with no leading zero (only 0 itself starts with '0'). |
| `Registration.DigitsValueOfNatToString` | Backend/registration.py:63 | Reading a printed number back gives the number. |
| `Registration.OrdinalSuffix` | Backend/registration.py:63 | The suffix is two letters: "st", "nd" or "rd" for 1, 2 and 3, and "th" for every other number. |
| `Registration.SemesterNumberOfLabel` | Backend/registration.py:63 | Every semester label gives back its own number. |
| `Registration.SemesterLabels` | Backend/registration.py:62-64 | A y-year course yields 2y labels. Label k is the decimal form of k + 1, its ordinal suffix and " Semester", so the numbers run 1..2y in order. |
| `Registration.SemesterLabelsDistinct` | Backend/registration.py:62-64 | No two semester labels of a course coincide. |
| `Registration.UpdateSemesterOptions` | Backend/registration.py:52-70 | The values are cleared and the selection reset first. The course placeholder then disables the list. A listed course offers exactly the labels `SemesterLabels` gives for its years, read-only. Any other course raises from the table lookup, leaving the list cleared, the selection reset and the enabled state unchanged. |
| `Registration.TwoYearCourseScenario` | Backend/registration.py:33-64 | A two-year course offers four semesters, the first labelled "1st Semester". |
| `Registration.SkipSpace` | Backend/registration.py:210 | The first character at or after lo that is not whitespace. |
| `Registration.TrimEnd` | Backend/registration.py:210 | The end of the text once trailing whitespace is dropped. |
| `Registration.Strip` | Backend/registration.py:210-213 | The result is a slice of the input with only whitespace cut from either end, and it does not start or end with whitespace. It is empty iff the input is all whitespace. |
| `Registration.SetDetails` | Backend/registration.py:208-232 | The first missing field, in the order name, course, semester, roll number, is reported. The duplicate check runs only when all four are present. The stored details are the stripped name and roll number with the chosen course and semester. |

## Left out

Foreign computation:

- The image statistics of `detect_photo_spoof` and `detect_screen_artifacts`: floating-point OpenCV
  computations. The spoof score of a non-empty crop is the input `imageScore`. It is not assumed to lie
  in [0, 1], since the source does not clamp it.
- `calculate_ear` and the eye landmarks: Euclidean geometry on library output. The eye aspect ratio is
  an input.
- Face detection, landmarks, encodings, `face_distance` and `np.median`: library calls. Distances and
  per-person medians are inputs.
- The integer rescale of detection boxes (Backend/blink_detection.py:215-221): a float multiply then
  truncation. Boxes enter already in frame coordinates.
- Measuring the frame rate and reading the clock: both are inputs (`currentFps`, `now`). Each call in
  the source reads the clock anew; the model uses one `now` per call.
- Random choice of a challenge: an input constrained to the four names.

Output and display:

- Recognition.RoundHundredths: rounds the exact value rather than its binary float, because float
  representation is not modelled; a decimal tie that is not exact in binary (such as 2.675) can round
  the other way in Python.
- Display formatting: the percentage strings, emoji status texts, colours, FPS text and popups, and
  the rounding of predictor outputs. `AntiSpoof.StatusText` keeps only the fixed strings.
- `get_user_challenge_status`: only formats display text.
- `show_attendance_message`, the popup thread and all drawing.
- `update_attendance_in_firebase` and all other Firestore I/O: external effects. A confirmation is
  returned as a `Confirmation` value instead.

Fixed configuration:

- BlinkGate.LivenessGate: is stated for the shipped `ANTI_SPOOF_ENABLED = True` only; the disabled
  configuration, where every face may blink, is not modelled. `BlinkGate.BlinkStep` likewise always
  locks blinking on a confirmation.

Exception paths:

- The `try`/`except` around liveness verification and encodings in the frame loop: the modelled
  functions do not raise.
- The calibration `except` path, which falls back to 0.25. With dynamic calibration switched on, the
  model always calibrates.

Unused fields:

- The frame loop's `last_ear`, `verification_status` and `verification_attempts` fields are never
  read by any decision, so they are not modelled.

Attendance predictor:

- Model training, feature preparation, label encoding, pickling and the classifier's prediction and
  probabilities: machine learning. `Attendance.PredictAttendance` stops at the features handed to the
  model.
- Rolling means in the training features: pandas.
- The `student_enhanced` empty branch: it is empty only when the student's raw rows are, and that case is answered before it.
- The predictor's history rows are assumed sorted by date, as the source sorts them before use.

Registration:

- `compute_average_encoding`'s high-variance warning in the recognition utilities: it only prints.
- `check_duplicate_entry`: a database query. It is the `isDuplicate` parameter of
  `Registration.SetDetails`.
- The webcam capture, upload and Tk window of registration: I/O and UI.

Other files:

- The Flask server (Backend/server.py) and the launcher (Backend/main.py): HTTP routing, threads and
  start-up, with no decision logic of the core.

Behaviour of the code worth noting (the model follows the code):

- The detection cache's validity flag is never cleared by ageing, so a frame can process the faces of
  a detection older than the 1.2 s lifetime; see `FrameLoop.StaleCacheStillProcessed`.
- Cache confidence loses age x 20 on every reused frame, and these losses add up, so the total loss grows faster than the age.
- In the frame loop's cached-status branch, `can_blink` is read right after being set to false, so
  that branch never unlocks blinking.
- `get_performance_settings` samples more often at higher frame rates. This is opposite to the frame
  loop's own table, which the loop actually uses; both are modelled as written.

=== FILE: anti_spoof.dfy ===
/** The per-subject liveness challenge: a challenge is armed, the subject's
    face-box track is judged against the first sighting, a leaky counter of
    real-looking frames decides when the challenge passes, and the resulting
    verification expires lazily.  Every operation is a pure transition over an
    immutable per-subject record; the detector's dictionary of records is a
    `Store`. */
module AntiSpoof {
  import opened Outcomes
  import Config
  import Seqs

  /** One sighting of the face: box centroid, box area and the time seen. */
  datatype Position = Position(x: int, y: int, size: int, time: real)

  /** A face box in the order the frame loop passes it: (left, top, right, bottom). */
  datatype FaceBox = FaceBox(left: int, top: int, right: int, bottom: int)

  /** The record `get_user_state` creates per subject. */
  datatype UserState = UserState(
    challengeActive: bool,
    challengeStartTime: real,
    currentChallenge: Option<string>,
    previousPositions: seq<Position>,
    realFrameCount: nat,
    verified: bool,
    lastVerificationTime: real,
    baselinePosition: Option<Position>,
    movementDetected: bool)

  const InitialState: UserState := UserState(false, 0.0, None, [], 0, false, 0.0, None, false)

  /** The detector's map from subject id to its record. */
  type Store = map<string, UserState>

  /** Sightings kept in the movement history. */
  const HistoryCapacity: nat := 10
  /** A verification this recent suppresses re-arming a challenge. */
  const RearmCooldown: real := 30.0
  /** A verification older than this no longer counts. */
  const VerificationLifetime: real := 60.0
  /** Sightings the history needs before any movement is judged. */
  const MinHistory: nat := 3
  /** NOD_HEAD looks at this many most recent sightings. */
  const NodWindow: nat := 5

  /** What holds of every record between calls. */
  predicate Valid(s: UserState) {
    && |s.previousPositions| <= HistoryCapacity
    && !(s.challengeActive && s.verified)
    && (s.baselinePosition.None? ==> s.previousPositions == [])
  }

  predicate StoreValid(store: Store) {
    forall k :: k in store ==> Valid(store[k])
  }

  /** The record a subject has, or would get on first sighting. */
  function StateOf(store: Store, id: string): UserState {
    if id in store then store[id] else InitialState
  }

  /** `get_user_state`: fetch the subject's record, creating a fresh one on
      first sighting. */
  function GetUserState(store: Store, id: string): (r: (Store, UserState))
    ensures id in r.0 && r.0[id] == r.1
    ensures id in store ==> r.0 == store && r.1 == store[id]
    ensures id !in store ==> r.0 == store[id := InitialState] && r.1 == InitialState
    ensures StoreValid(store) ==> StoreValid(r.0)
  {
    if id in store then (store, store[id]) else (store[id := InitialState], InitialState)
  }

  // ---------------------------------------------------------------------
  // Challenge texts
  // ---------------------------------------------------------------------

  const DefaultInstruction: string := "Follow the instruction"

  /** `get_challenge_text`: the instruction shown for a challenge name; any
      other value, including the absent challenge of a fresh record, gets the
      generic instruction. */
  function ChallengeText(challengeType: Option<string>): (text: string)
    ensures challengeType == Some("TURN_LEFT") ==> text == "Turn your head LEFT"
    ensures challengeType == Some("TURN_RIGHT") ==> text == "Turn your head RIGHT"
    ensures challengeType == Some("MOVE_CLOSER") ==> text == "Move CLOSER to camera"
    ensures challengeType == Some("NOD_HEAD") ==> text == "NOD your head up/down"
    ensures (challengeType.None? || challengeType.value !in Config.ChallengeTypes) ==> text == DefaultInstruction
  {
    match challengeType
    case Some("TURN_LEFT") => "Turn your head LEFT"
    case Some("TURN_RIGHT") => "Turn your head RIGHT"
    case Some("MOVE_CLOSER") => "Move CLOSER to camera"
    case Some("NOD_HEAD") => "NOD your head up/down"
    case _ => DefaultInstruction
  }

  /** The four instructions are pairwise different and none is the generic one,
      so the text identifies the challenge. */
  lemma ChallengeTextIdentifiesChallenge(a: string, b: string)
    requires a in Config.ChallengeTypes && b in Config.ChallengeTypes
    ensures ChallengeText(Some(a)) != DefaultInstruction
    ensures ChallengeText(Some(a)) == ChallengeText(Some(b)) <==> a == b
  {
  }

  // ---------------------------------------------------------------------
  // Arming a challenge
  // ---------------------------------------------------------------------

  /** A recent verification blocks a new challenge. */
  predicate RearmSuppressed(s: UserState, now: real) {
    s.verified && now - s.lastVerificationTime < RearmCooldown
  }

  /** `start_challenge_for_user` on one record; `challenge` is the value
      `random.choice(CHALLENGE_TYPES)` drew. */
  function StartChallenge(s: UserState, now: real, challenge: string): (r: (UserState, Option<string>))
    requires challenge in Config.ChallengeTypes
    ensures RearmSuppressed(s, now) ==> r == (s, None)
    ensures !RearmSuppressed(s, now) ==>
      && r.1 == Some(ChallengeText(Some(challenge)))
      && r.0.challengeActive && r.0.challengeStartTime == now
      && r.0.currentChallenge == Some(challenge)
      && r.0.previousPositions == [] && r.0.baselinePosition == None
      && r.0.realFrameCount == 0 && !r.0.verified && !r.0.movementDetected
      && r.0.lastVerificationTime == s.lastVerificationTime
    ensures Valid(s) ==> Valid(r.0)
  {
    if RearmSuppressed(s, now) then (s, None)
    else
      var s' := s.(challengeActive := true, challengeStartTime := now, currentChallenge := Some(challenge),
                   previousPositions := [], realFrameCount := 0, verified := false,
                   baselinePosition := None, movementDetected := false);
      (s', Some(ChallengeText(s'.currentChallenge)))
  }

  /** `start_challenge_for_user` on the store: the subject's record is created
      if needed and transformed; no other subject's record changes. */
  function StartChallengeForUser(store: Store, id: string, now: real, challenge: string): (r: (Store, Option<string>))
    requires challenge in Config.ChallengeTypes
    ensures id in r.0 && r.0.Keys == store.Keys + {id}
    ensures forall k :: k in store && k != id ==> r.0[k] == store[k]
    ensures (r.0[id], r.1) == StartChallenge(StateOf(store, id), now, challenge)
    ensures r.1.None? <==> id in store && RearmSuppressed(store[id], now)
    ensures r.1.None? ==> r.0 == store
    ensures StoreValid(store) ==> StoreValid(r.0)
  {
    var (store1, s) := GetUserState(store, id);
    var (s', text) := StartChallenge(s, now, challenge);
    (store1[id := s'], text)
  }

  /** Asking twice within the cooldown of a verification gets no challenge
      either time and leaves the store as it was. */
  lemma RearmSuppressionIdempotent(store: Store, id: string, now1: real, now2: real, c1: string, c2: string)
    requires c1 in Config.ChallengeTypes && c2 in Config.ChallengeTypes
    requires id in store && store[id].verified
    requires now1 - store[id].lastVerificationTime < RearmCooldown
    requires now2 - store[id].lastVerificationTime < RearmCooldown
    ensures var (store1, t1) := StartChallengeForUser(store, id, now1, c1);
      var (store2, t2) := StartChallengeForUser(store1, id, now2, c2);
      t1 == None && t2 == None && store2 == store
  {
  }

  // ---------------------------------------------------------------------
  // Spoof score and movement
  // ---------------------------------------------------------------------

  /** `detect_photo_spoof`, reduced to its guard: an empty face region scores
      exactly 0.0 and otherwise the image statistics decide (`imageScore`). */
  function PhotoSpoofScore(regionSize: nat, imageScore: real): (score: real)
    ensures regionSize == 0 ==> score == 0.0
    ensures regionSize > 0 ==> score == imageScore
  {
    if regionSize == 0 then 0.0 else imageScore
  }

  /** The sighting a face box yields: floor-halved centroid and box area. */
  function Sighting(box: FaceBox, now: real): (p: Position)
    ensures 2 * p.x <= box.left + box.right < 2 * p.x + 2
    ensures 2 * p.y <= box.top + box.bottom < 2 * p.y + 2
    ensures p.size == (box.right - box.left) * (box.bottom - box.top) && p.time == now
  {
    // Python's `//` and Dafny's `/` agree for the positive divisor 2.
    Position((box.left + box.right) / 2, (box.top + box.bottom) / 2,
             (box.right - box.left) * (box.bottom - box.top), now)
  }

  function MaxY(ps: seq<Position>): (m: int)
    requires |ps| > 0
    ensures forall i :: 0 <= i < |ps| ==> ps[i].y <= m
    ensures exists i :: 0 <= i < |ps| && ps[i].y == m
  {
    if |ps| == 1 then ps[0].y
    else
      var rest := MaxY(ps[1..]);
      assert forall i :: 1 <= i < |ps| ==> ps[i] == ps[1..][i - 1];
      if ps[0].y >= rest then ps[0].y else rest
  }

  function MinY(ps: seq<Position>): (m: int)
    requires |ps| > 0
    ensures forall i :: 0 <= i < |ps| ==> m <= ps[i].y
    ensures exists i :: 0 <= i < |ps| && ps[i].y == m
  {
    if |ps| == 1 then ps[0].y
    else
      var rest := MinY(ps[1..]);
      assert forall i :: 1 <= i < |ps| ==> ps[i] == ps[1..][i - 1];
      if ps[0].y <= rest then ps[0].y else rest
  }

  /** Whether the current sighting satisfies the challenge, judged against the
      baseline sighting (and, for a nod, the recent history). */
  predicate MovementSatisfied(challenge: Option<string>, base: Position, current: Position, history: seq<Position>) {
    match challenge
    case Some("TURN_LEFT") => current.x < base.x - Config.MotionThreshold
    case Some("TURN_RIGHT") => current.x > base.x + Config.MotionThreshold
    case Some("MOVE_CLOSER") => (current.size as real) > (base.size as real) * 1.10
    case Some("NOD_HEAD") =>
      var recent := Seqs.Last(history, NodWindow);
      |recent| >= MinHistory && MaxY(recent) - MinY(recent) > Config.MotionThreshold
    case _ => false
  }

  /** A nod is seen exactly when two of the last five sightings differ in
      height by more than the motion threshold. */
  lemma NodMeansVerticalSpread(base: Position, current: Position, history: seq<Position>)
    requires |history| >= MinHistory
    ensures var recent := Seqs.Last(history, NodWindow);
      MovementSatisfied(Some("NOD_HEAD"), base, current, history) <==>
      exists i, j :: 0 <= i < |recent| && 0 <= j < |recent| && recent[i].y - recent[j].y > Config.MotionThreshold
  {
    var recent := Seqs.Last(history, NodWindow);
    if MovementSatisfied(Some("NOD_HEAD"), base, current, history) {
      var i :| 0 <= i < |recent| && recent[i].y == MaxY(recent);
      var j :| 0 <= j < |recent| && recent[j].y == MinY(recent);
      assert recent[i].y - recent[j].y > Config.MotionThreshold;
    }
  }

  /** The history after a sighting: appended, with the oldest entry dropped
      once the history would exceed its capacity. */
  function PushPosition(history: seq<Position>, pos: Position): (r: seq<Position>)
    ensures |r| == if |history| < HistoryCapacity then |history| + 1 else |history|
    ensures r == (history + [pos])[|history| + 1 - |r|..]
  {
    var appended := history + [pos];
    if |appended| > HistoryCapacity then appended[1..] else appended
  }

  /** `analyze_movement` on one record. */
  function AnalyzeMovement(s: UserState, box: FaceBox, now: real): (r: (UserState, bool))
    ensures var pos := Sighting(box, now);
      && (s.baselinePosition.None? ==>
            r.0 == s.(baselinePosition := Some(pos), previousPositions := [pos]) && !r.1)
      && (s.baselinePosition.Some? ==>
            var history := PushPosition(s.previousPositions, pos);
            && (|history| < MinHistory ==> r.0 == s.(previousPositions := history) && !r.1)
            && (|history| >= MinHistory ==>
                  && r.1 == MovementSatisfied(s.currentChallenge, s.baselinePosition.value, pos, history)
                  && r.0 == s.(previousPositions := history, movementDetected := r.1)))
    ensures r.0.baselinePosition.Some? && r.0.challengeActive == s.challengeActive
    ensures r.1 ==> |r.0.previousPositions| >= MinHistory
    ensures Valid(s) ==> Valid(r.0)
  {
    var pos := Sighting(box, now);
    match s.baselinePosition
    case None => (s.(baselinePosition := Some(pos), previousPositions := [pos]), false)
    case Some(base) =>
      var history := PushPosition(s.previousPositions, pos);
      if |history| < MinHistory then (s.(previousPositions := history), false)
      else
        var moved := MovementSatisfied(s.currentChallenge, base, pos, history);
        (s.(previousPositions := history, movementDetected := moved), moved)
  }

  /** With the baseline at x = 300 and a TURN_LEFT challenge, a sighting at
      x = 285 passes while x = 295 and x = 288 do not: the comparison is strict
      and made against the baseline. */
  lemma TurnLeftScenario(s: UserState, now: real)
    requires s.currentChallenge == Some("TURN_LEFT")
    requires s.baselinePosition.Some? && s.baselinePosition.value.x == 300
    requires 2 <= |s.previousPositions| <= HistoryCapacity
    ensures AnalyzeMovement(s, FaceBox(235, 100, 335, 200), now).1
    ensures !AnalyzeMovement(s, FaceBox(245, 100, 345, 200), now).1
    ensures !AnalyzeMovement(s, FaceBox(238, 100, 338, 200), now).1
  {
    assert Sighting(FaceBox(235, 100, 335, 200), now).x == 285;
    assert Sighting(FaceBox(245, 100, 345, 200), now).x == 295;
    assert Sighting(FaceBox(238, 100, 338, 200), now).x == 288;
  }

  // ---------------------------------------------------------------------
  // Scoring and verification
  // ---------------------------------------------------------------------

  /** The blend of spoof score and movement (0 or 1). */
  function CombinedScore(texture: real, moved: bool): real {
    texture * 0.6 + (if moved then 1.0 else 0.0) * 0.4
  }

  /** Movement alone lifts any non-negative spoof score over the threshold;
      without movement the spoof score must reach 2/3. */
  lemma CombinedScoreThreshold(texture: real, moved: bool)
    ensures moved && texture >= 0.0 ==> CombinedScore(texture, moved) >= Config.LivenessScoreThreshold
    ensures !moved ==> (CombinedScore(texture, moved) >= Config.LivenessScoreThreshold <==> texture >= 2.0 / 3.0)
  {
  }

  /** The leaky real-frame counter: up by one on a passing score, otherwise
      down by one but never below zero. */
  function LeakyCount(count: nat, combined: real): (c: nat)
    ensures combined >= Config.LivenessScoreThreshold <==> c == count + 1
    ensures combined < Config.LivenessScoreThreshold ==> c == if count == 0 then 0 else count - 1
    ensures c <= count + 1
  {
    if combined >= Config.LivenessScoreThreshold then count + 1
    else if count == 0 then 0 else count - 1
  }

  datatype LivenessStatus =
    | NoActiveChallenge
    | ChallengeTimedOut
    | VerificationSuccessful
    /** The instruction and the percentage of the required frames reached. */
    | InProgress(instruction: string, progress: real)

  /** The fixed status strings; the in-progress one is formatted for display. */
  function StatusText(st: LivenessStatus): string {
    match st
    case NoActiveChallenge => "No active challenge"
    case ChallengeTimedOut => "Challenge timeout - try again"
    case VerificationSuccessful => "Verification successful!"
    case InProgress(instruction, _) => instruction
  }

  /** The triple `verify_user_liveness` returns. */
  datatype Verdict = Verdict(verified: bool, status: LivenessStatus, score: real)

  /** Share of the required real frames reached, as a percentage capped at 100. */
  function Progress(count: nat): (p: real)
    ensures 0.0 <= p <= 100.0
    ensures count >= Config.ConsecutiveRealFrames ==> p == 100.0
  {
    var raw := (count as real) / (Config.ConsecutiveRealFrames as real) * 100.0;
    if raw < 100.0 then raw else 100.0
  }

  /** A frame is scored when the challenge is open and has not timed out. */
  predicate Scored(s: UserState, now: real) {
    s.challengeActive && !(now - s.challengeStartTime > Config.ChallengeTimeout)
  }

  /** A scored frame: blend the spoof score with this frame's movement, move
      the leaky counter, and verify once the counter reaches the bar while
      the head is moving. */
  function ScoreFrame(s: UserState, now: real, box: FaceBox, regionSize: nat, imageScore: real): (r: (UserState, Verdict))
    requires Scored(s, now)
    ensures var (s1, moved) := AnalyzeMovement(s, box, now);
      && r.1.score == CombinedScore(PhotoSpoofScore(regionSize, imageScore), moved)
      && r.0.realFrameCount == LeakyCount(s.realFrameCount, r.1.score)
      && (r.1.verified <==> r.0.realFrameCount >= Config.ConsecutiveRealFrames && moved)
      && r.0.previousPositions == s1.previousPositions && r.0.baselinePosition == s1.baselinePosition
      && (r.1.verified ==> r.0 == s1.(realFrameCount := r.0.realFrameCount, verified := true,
                                     challengeActive := false, lastVerificationTime := now))
      && (!r.1.verified ==> r.0 == s1.(realFrameCount := r.0.realFrameCount))
    ensures r.1.verified <==> r.1.status == VerificationSuccessful
  {
    var texture := PhotoSpoofScore(regionSize, imageScore);
    var (s1, moved) := AnalyzeMovement(s, box, now);
    var combined := CombinedScore(texture, moved);
    var s2 := s1.(realFrameCount := LeakyCount(s1.realFrameCount, combined));
    if s2.realFrameCount >= Config.ConsecutiveRealFrames && moved then
      (s2.(verified := true, challengeActive := false, lastVerificationTime := now),
       Verdict(true, VerificationSuccessful, combined))
    else
      (s2, Verdict(false, InProgress(ChallengeText(s2.currentChallenge), Progress(s2.realFrameCount)), combined))
  }

  /** `verify_user_liveness` on one record.  `regionSize` is the face region's
      pixel count and `imageScore` what the image statistics would give it. */
  function VerifyLiveness(s: UserState, now: real, box: FaceBox, regionSize: nat, imageScore: real): (r: (UserState, Verdict))
    ensures !s.challengeActive ==> r == (s, Verdict(false, NoActiveChallenge, 0.0))
    ensures s.challengeActive && now - s.challengeStartTime > Config.ChallengeTimeout ==>
      r == (s.(challengeActive := false), Verdict(false, ChallengeTimedOut, 0.0))
    ensures Scored(s, now) ==>
      var (s1, moved) := AnalyzeMovement(s, box, now);
      && r.1.score == CombinedScore(PhotoSpoofScore(regionSize, imageScore), moved)
      && (r.0.realFrameCount == s.realFrameCount + 1 <==> r.1.score >= Config.LivenessScoreThreshold)
      && r.0.realFrameCount + 1 >= s.realFrameCount
      && (r.1.verified <==> r.0.realFrameCount >= Config.ConsecutiveRealFrames && moved)
      && r.0.previousPositions == s1.previousPositions && r.0.baselinePosition == s1.baselinePosition
    ensures r.0.realFrameCount <= s.realFrameCount + 1
    ensures r.1.verified ==> Scored(s, now) && r.0.verified && !r.0.challengeActive && r.0.lastVerificationTime == now
    ensures r.1.verified <==> r.1.status == VerificationSuccessful
    ensures !r.1.verified ==> r.0.verified == s.verified && r.0.lastVerificationTime == s.lastVerificationTime
    ensures Valid(s) ==> Valid(r.0)
  {
    if !s.challengeActive then (s, Verdict(false, NoActiveChallenge, 0.0))
    else if now - s.challengeStartTime > Config.ChallengeTimeout then
      (s.(challengeActive := false), Verdict(false, ChallengeTimedOut, 0.0))
    else ScoreFrame(s, now, box, regionSize, imageScore)
  }

  /** `verify_user_liveness` on the store. */
  function VerifyUserLiveness(store: Store, id: string, now: real, box: FaceBox, regionSize: nat, imageScore: real): (r: (Store, Verdict))
    ensures id in r.0 && r.0.Keys == store.Keys + {id}
    ensures forall k :: k in store && k != id ==> r.0[k] == store[k]
    ensures (r.0[id], r.1) == VerifyLiveness(StateOf(store, id), now, box, regionSize, imageScore)
    ensures StoreValid(store) ==> StoreValid(r.0)
  {
    var (store1, s) := GetUserState(store, id);
    var (s', verdict) := VerifyLiveness(s, now, box, regionSize, imageScore);
    (store1[id := s'], verdict)
  }

  /** One camera frame presented to the verifier. */
  datatype Frame = Frame(now: real, box: FaceBox, regionSize: nat, imageScore: real)

  /** The record after the frames are verified in order. */
  function RunFrames(s: UserState, frames: seq<Frame>): UserState
    decreases |frames|
  {
    if |frames| == 0 then s
    else
      var f := frames[0];
      RunFrames(VerifyLiveness(s, f.now, f.box, f.regionSize, f.imageScore).0, frames[1..])
  }

  /** The counter rises by at most one per frame, so after a fresh challenge
      it never exceeds the number of frames evaluated since. */
  lemma {:induction false} RealFrameCountBoundedByFrames(s: UserState, frames: seq<Frame>)
    ensures RunFrames(s, frames).realFrameCount <= s.realFrameCount + |frames|
    decreases |frames|
  {
    if |frames| > 0 {
      var f := frames[0];
      var s1 := VerifyLiveness(s, f.now, f.box, f.regionSize, f.imageScore).0;
      RealFrameCountBoundedByFrames(s1, frames[1..]);
    }
  }

  lemma CountBoundedSinceChallenge(s: UserState, now: real, challenge: string, frames: seq<Frame>)
    requires challenge in Config.ChallengeTypes && !RearmSuppressed(s, now)
    ensures RunFrames(StartChallenge(s, now, challenge).0, frames).realFrameCount <= |frames|
  {
    RealFrameCountBoundedByFrames(StartChallenge(s, now, challenge).0, frames);
  }

  /** One frame of the TURN_LEFT scenario below: spoof score 0.9 and the face
      at x = 280, twenty pixels left of the baseline. */
  lemma TurnedLeftFrame(s: UserState, now: real)
    requires Scored(s, now) && s.currentChallenge == Some("TURN_LEFT")
    requires s.baselinePosition.Some? && s.baselinePosition.value.x == 300
    requires 1 <= |s.previousPositions| < HistoryCapacity
    ensures var (s', v) := VerifyLiveness(s, now, FaceBox(230, 200, 330, 300), 100, 0.9);
      && s'.realFrameCount == s.realFrameCount + 1
      && |s'.previousPositions| == |s.previousPositions| + 1
      && (v.verified <==> s.realFrameCount + 1 >= Config.ConsecutiveRealFrames && |s.previousPositions| + 1 >= MinHistory)
      && (!v.verified ==> s' == s.(realFrameCount := s'.realFrameCount, previousPositions := s'.previousPositions,
                                   movementDetected := s'.movementDetected))
  {
    var box := FaceBox(230, 200, 330, 300);
    assert Sighting(box, now).x == 280;
    var (s1, moved) := AnalyzeMovement(s, box, now);
    assert |s1.previousPositions| >= MinHistory ==> moved;
    assert CombinedScore(0.9, moved) >= Config.LivenessScoreThreshold;
  }

  /** Eight frames with spoof score 0.9 after a TURN_LEFT challenge, the first
      centred at x = 300 and the rest at x = 280, verify on the eighth frame and
      not before: the first two frames only build the history, yet every frame
      scores at least 0.54 and so counts. */
  lemma EightGoodFramesVerify(s: UserState)
    requires !RearmSuppressed(s, 0.0)
    ensures
      var start := StartChallenge(s, 0.0, "TURN_LEFT").0;
      var left := FaceBox(230, 200, 330, 300);
      var (s1, v1) := VerifyLiveness(start, 0.5, FaceBox(250, 200, 350, 300), 100, 0.9);
      var (s2, v2) := VerifyLiveness(s1, 1.0, left, 100, 0.9);
      var (s3, v3) := VerifyLiveness(s2, 1.5, left, 100, 0.9);
      var (s4, v4) := VerifyLiveness(s3, 2.0, left, 100, 0.9);
      var (s5, v5) := VerifyLiveness(s4, 2.5, left, 100, 0.9);
      var (s6, v6) := VerifyLiveness(s5, 3.0, left, 100, 0.9);
      var (s7, v7) := VerifyLiveness(s6, 3.5, left, 100, 0.9);
      var (s8, v8) := VerifyLiveness(s7, 4.0, left, 100, 0.9);
      && !v1.verified && !v2.verified && !v3.verified && !v4.verified
      && !v5.verified && !v6.verified && !v7.verified
      && v8.verified && s8.verified && !s8.challengeActive
  {
    var start := StartChallenge(s, 0.0, "TURN_LEFT").0;
    var left := FaceBox(230, 200, 330, 300);
    var home := FaceBox(250, 200, 350, 300);
    assert Sighting(home, 0.5).x == 300;
    var (s1, v1) := VerifyLiveness(start, 0.5, home, 100, 0.9);
    assert s1.realFrameCount == 1 && |s1.previousPositions| == 1 && !v1.verified;
    TurnedLeftFrame(s1, 1.0);
    var (s2, v2) := VerifyLiveness(s1, 1.0, left, 100, 0.9);
    TurnedLeftFrame(s2, 1.5);
    var (s3, v3) := VerifyLiveness(s2, 1.5, left, 100, 0.9);
    TurnedLeftFrame(s3, 2.0);
    var (s4, v4) := VerifyLiveness(s3, 2.0, left, 100, 0.9);
    TurnedLeftFrame(s4, 2.5);
    var (s5, v5) := VerifyLiveness(s4, 2.5, left, 100, 0.9);
    TurnedLeftFrame(s5, 3.0);
    var (s6, v6) := VerifyLiveness(s5, 3.0, left, 100, 0.9);
    TurnedLeftFrame(s6, 3.5);
    var (s7, v7) := VerifyLiveness(s6, 3.5, left, 100, 0.9);
    TurnedLeftFrame(s7, 4.0);
  }

  // ---------------------------------------------------------------------
  // Expiry and reset
  // ---------------------------------------------------------------------

  /** `is_user_verified`: an unseen subject is not verified and gets no record;
      a verification counts for 60 seconds and is cleared, on this read, once
      it has expired. */
  function IsUserVerified(store: Store, id: string, now: real): (r: (Store, bool))
    ensures id !in store ==> r == (store, false)
    ensures r.1 <==> id in store && store[id].verified && now - store[id].lastVerificationTime < VerificationLifetime
    ensures id in store ==> r.0 == store[id := store[id].(verified := r.1)]
    ensures StoreValid(store) ==> StoreValid(r.0)
  {
    if id !in store then (store, false)
    else
      var s := store[id];
      if s.verified && now - s.lastVerificationTime < VerificationLifetime then (store, true)
      else if s.verified then (store[id := s.(verified := false)], false)
      else (store, false)
  }

  /** `reset_user_verification`: clear both the verification and any open
      challenge of a known subject; an unknown subject is ignored. */
  function ResetUserVerification(store: Store, id: string): (r: Store)
    ensures id !in store ==> r == store
    ensures id in store ==> r == store[id := store[id].(verified := false, challengeActive := false)]
    ensures StoreValid(store) ==> StoreValid(r)
  {
    if id in store then store[id := store[id].(verified := false, challengeActive := false)] else store
  }

  /** After a reset the subject reads as unverified and a new challenge is
      armed at once, whatever the cooldown. */
  lemma ResetThenRearm(store: Store, id: string, now: real, challenge: string)
    requires challenge in Config.ChallengeTypes
    ensures var reset := ResetUserVerification(store, id);
      && !IsUserVerified(reset, id, now).1
      && StartChallengeForUser(reset, id, now, challenge).1 == Some(ChallengeText(Some(challenge)))
  {
  }
}

=== FILE: attendance.dfy ===
/** Calendar and streak helpers around the attendance predictor: the weekend
    rule, working days between dates, the per-row streak features, the
    features assembled for a target date, and the reason text.  Dates are
    proleptic Gregorian ordinals (day 1 is Monday, 1 January of year 1), so
    the weekday is a residue mod 7. */
module Attendance {
  import opened Outcomes
  import Seqs

  type Date = int

  /** `date.weekday()`: Monday is 0 and Sunday is 6. */
  function Weekday(d: Date): (w: nat)
    ensures w < 7
  {
    (d + 6) % 7
  }

  /** `is_college_closed`: Saturday and Sunday. */
  predicate IsCollegeClosed(d: Date) {
    Weekday(d) == 5 || Weekday(d) == 6
  }

  // ---------------------------------------------------------------------
  // Working days
  // ---------------------------------------------------------------------

  /** Open days `d` with `start < d <= end`. */
  function CountOpen(start: Date, end: Date): (n: nat)
    decreases end - start
  {
    if end <= start then 0
    else CountOpen(start, end - 1) + (if IsCollegeClosed(end) then 0 else 1)
  }

  /** `calculate_working_days`: walk the days after `start` up to and
      including `end`, counting the open ones. */
  method WorkingDays(start: Date, end: Date) returns (workingDays: nat)
    ensures start >= end ==> workingDays == 0
    ensures workingDays == CountOpen(start, end)
  {
    if start >= end {
      return 0;
    }
    workingDays := 0;
    var current := start + 1;
    while current <= end
      invariant start + 1 <= current <= end + 1
      invariant workingDays == CountOpen(start, current - 1)
      decreases end - current
    {
      if !IsCollegeClosed(current) {
        workingDays := workingDays + 1;
      }
      current := current + 1;
    }
  }

  /** There are never more working days than calendar days. */
  lemma {:induction false} CountOpenBounded(start: Date, end: Date)
    ensures CountOpen(start, end) <= if end > start then end - start else 0
    decreases end - start
  {
    if end > start {
      CountOpenBounded(start, end - 1);
    }
  }

  /** Working days over consecutive spans add up. */
  lemma {:induction false} CountOpenSplit(a: Date, b: Date, c: Date)
    requires a <= b <= c
    ensures CountOpen(a, c) == CountOpen(a, b) + CountOpen(b, c)
    decreases c - b
  {
    if c > b {
      CountOpenSplit(a, b, c - 1);
    }
  }

  /** Ordinal 1 (1 January of year 1) is a Monday, and the weekday is the
      ordinal's offset from it modulo 7. */
  lemma WeekdayAnchor(d: Date)
    ensures (d - Weekday(d)) % 7 == 1
    ensures Weekday(d) == 0 <==> d % 7 == 1
  {
  }

  /** Calendar anchors: 1 January 2024 (ordinal 738886) is a Monday, 5 January
      a Friday and 6 January a Saturday, on which the college is closed. */
  lemma KnownWeekdays()
    ensures Weekday(738886) == 0 && !IsCollegeClosed(738886)
    ensures Weekday(738890) == 4 && !IsCollegeClosed(738890)
    ensures Weekday(738891) == 5 && IsCollegeClosed(738891)
  {
  }

  lemma WeekdayShift(d: Date, k: nat)
    ensures Weekday(d + k) == (Weekday(d) + k) % 7
  {
  }

  /** Every seven consecutive days hold exactly five working days. */
  lemma FullWeekHasFiveWorkingDays(a: Date)
    ensures CountOpen(a, a + 7) == 5
  {
    var w := Weekday(a);
    WeekdayShift(a, 1); WeekdayShift(a, 2); WeekdayShift(a, 3); WeekdayShift(a, 4);
    WeekdayShift(a, 5); WeekdayShift(a, 6); WeekdayShift(a, 7);
    assert CountOpen(a, a) == 0;
    assert CountOpen(a, a + 1) == CountOpen(a, a) + (if IsCollegeClosed(a + 1) then 0 else 1);
    assert CountOpen(a, a + 2) == CountOpen(a, a + 1) + (if IsCollegeClosed(a + 2) then 0 else 1);
    assert CountOpen(a, a + 3) == CountOpen(a, a + 2) + (if IsCollegeClosed(a + 3) then 0 else 1);
    assert CountOpen(a, a + 4) == CountOpen(a, a + 3) + (if IsCollegeClosed(a + 4) then 0 else 1);
    assert CountOpen(a, a + 5) == CountOpen(a, a + 4) + (if IsCollegeClosed(a + 5) then 0 else 1);
    assert CountOpen(a, a + 6) == CountOpen(a, a + 5) + (if IsCollegeClosed(a + 6) then 0 else 1);
    assert CountOpen(a, a + 7) == CountOpen(a, a + 6) + (if IsCollegeClosed(a + 7) then 0 else 1);
  }

  /** `k` whole weeks hold exactly `5 k` working days. */
  lemma {:induction false} WholeWeeks(a: Date, k: nat)
    ensures CountOpen(a, a + 7 * k) == 5 * k
  {
    if k > 0 {
      WholeWeeks(a, k - 1);
      CountOpenSplit(a, a + 7 * (k - 1), a + 7 * k);
      FullWeekHasFiveWorkingDays(a + 7 * (k - 1));
    }
  }

  // ---------------------------------------------------------------------
  // Per-row streak features
  // ---------------------------------------------------------------------

  /** One attendance row of a student, in date order. */
  datatype Row = Row(date: Date, present: bool)

  /** Absent rows at the end of `rows`: the prediction-time walk from the
      newest row backwards that stops at the first present row. */
  function TrailingAbsences(rows: seq<Row>): (n: nat)
    ensures n <= |rows|
    ensures forall k :: |rows| - n <= k < |rows| ==> !rows[k].present
    ensures n < |rows| ==> rows[|rows| - 1 - n].present
  {
    if |rows| == 0 || rows[|rows| - 1].present then 0
    else 1 + TrailingAbsences(rows[..|rows| - 1])
  }

  /** The `consecutive_absences` column: an absent row extends the streak and
      a present row resets it; each entry is the run of absences ending at
      that row. */
  method ConsecutiveAbsences(rows: seq<Row>) returns (streaks: seq<nat>)
    ensures |streaks| == |rows|
    ensures forall i :: 0 <= i < |rows| ==> streaks[i] == TrailingAbsences(rows[..i + 1])
    ensures forall i :: 0 <= i < |rows| ==> streaks[i] <= i + 1
  {
    streaks := [];
    var currentStreak: nat := 0;
    var i := 0;
    while i < |rows|
      invariant 0 <= i <= |rows|
      invariant |streaks| == i
      invariant currentStreak == TrailingAbsences(rows[..i])
      invariant forall k :: 0 <= k < i ==> streaks[k] == TrailingAbsences(rows[..k + 1])
    {
      assert rows[..i + 1][..i] == rows[..i];
      if !rows[i].present {
        currentStreak := currentStreak + 1;
      } else {
        currentStreak := 0;
      }
      streaks := streaks + [currentStreak];
      i := i + 1;
    }
  }

  /** Date of the latest present row before row `i`. */
  function LastPresentBefore(rows: seq<Row>, i: nat): (d: Option<Date>)
    requires i <= |rows|
    ensures d.None? <==> forall k :: 0 <= k < i ==> !rows[k].present
    ensures d.Some? ==> exists k :: 0 <= k < i && rows[k].present && rows[k].date == d.value &&
                                  forall m :: k < m < i ==> !rows[m].present
  {
    if i == 0 then None
    else if rows[i - 1].present then Some(rows[i - 1].date)
    else LastPresentBefore(rows, i - 1)
  }

  /** Working days from the latest present row before row `i` to row `i`,
      or 0 when there is none. */
  function GapAt(rows: seq<Row>, i: nat): nat
    requires i < |rows|
  {
    match LastPresentBefore(rows, i)
    case None => 0
    case Some(d) => CountOpen(d, rows[i].date)
  }

  /** The `days_since_last_attendance` column: 0 until the student has been
      present once, then the working days from the latest earlier present row. */
  method DaysSinceLastAttendance(rows: seq<Row>) returns (gaps: seq<nat>)
    ensures |gaps| == |rows|
    ensures forall i :: 0 <= i < |rows| ==> gaps[i] == GapAt(rows, i)
    ensures forall i :: 0 <= i < |rows| && (forall k :: 0 <= k < i ==> !rows[k].present) ==> gaps[i] == 0
  {
    gaps := [];
    var lastPresentDate: Option<Date> := None;
    var i := 0;
    while i < |rows|
      invariant 0 <= i <= |rows|
      invariant |gaps| == i
      invariant lastPresentDate == LastPresentBefore(rows, i)
      invariant forall k :: 0 <= k < i ==> gaps[k] == GapAt(rows, k)
    {
      var gap := 0;
      if lastPresentDate.Some? {
        gap := WorkingDays(lastPresentDate.value, rows[i].date);
      }
      assert gap == GapAt(rows, i);
      gaps := gaps + [gap];
      if rows[i].present {
        lastPresentDate := Some(rows[i].date);
      }
      i := i + 1;
    }
  }

  // ---------------------------------------------------------------------
  // Features for a target date
  // ---------------------------------------------------------------------

  /** A row the predictor keeps: dated no later than the target, on an open day. */
  predicate OpenBy(row: Row, target: Date) {
    row.date <= target && !IsCollegeClosed(row.date)
  }

  /** Rows dated no later than the target and on an open day, in order. */
  function OpenRowsUpTo(rows: seq<Row>, target: Date): (r: seq<Row>)
    ensures |r| <= |rows|
    ensures forall k :: 0 <= k < |r| ==> OpenBy(r[k], target) && r[k] in rows
    ensures forall k :: 0 <= k < |rows| && OpenBy(rows[k], target) ==> rows[k] in r
    ensures (forall k :: 0 <= k < |rows| ==> OpenBy(rows[k], target)) ==> r == rows
  {
    if |rows| == 0 then []
    else
      var front := rows[..|rows| - 1];
      var init := OpenRowsUpTo(front, target);
      var last := rows[|rows| - 1];
      assert forall k :: 0 <= k < |rows| - 1 ==> rows[k] == front[k];
      if OpenBy(last, target) then init + [last] else init
  }

  /** The selection is a filter: it keeps or drops each row on its own, and
      what is kept from two runs of rows appears in the same order. */
  lemma {:induction false} OpenRowsConcat(a: seq<Row>, b: seq<Row>, target: Date)
    ensures OpenRowsUpTo(a + b, target) == OpenRowsUpTo(a, target) + OpenRowsUpTo(b, target)
    ensures |b| == 1 ==> OpenRowsUpTo(b, target) == if OpenBy(b[0], target) then b else []
    decreases |b|
  {
    if |b| == 0 {
      assert a + b == a;
    } else {
      var front := b[..|b| - 1];
      assert (a + b)[..|a + b| - 1] == a + front;
      OpenRowsConcat(a, front, target);
      if |b| == 1 {
        assert front == [];
      }
    }
  }

  function PresentCount(rows: seq<Row>): (n: nat)
    ensures n <= |rows|
  {
    if |rows| == 0 then 0
    else PresentCount(rows[..|rows| - 1]) + (if rows[|rows| - 1].present then 1 else 0)
  }

  /** Mean of the presence flags. */
  function Rate(rows: seq<Row>): (r: real)
    requires |rows| > 0
    ensures 0.0 <= r <= 1.0
    ensures r == 1.0 <==> PresentCount(rows) == |rows|
    ensures r == 0.0 <==> PresentCount(rows) == 0
  {
    (PresentCount(rows) as real) / (|rows| as real)
  }

  /** Latest date among the present rows. */
  function MaxPresentDate(rows: seq<Row>): (d: Option<Date>)
    ensures d.None? <==> forall k :: 0 <= k < |rows| ==> !rows[k].present
    ensures d.Some? ==> exists k :: 0 <= k < |rows| && rows[k].present && rows[k].date == d.value
    ensures d.Some? ==> forall k :: 0 <= k < |rows| && rows[k].present ==> rows[k].date <= d.value
  {
    if |rows| == 0 then None
    else
      var init := MaxPresentDate(rows[..|rows| - 1]);
      var last := rows[|rows| - 1];
      if !last.present then init
      else if init.Some? && init.value > last.date then init
      else Some(last.date)
  }

  /** The features the predictor is handed for a target date. */
  datatype Features = Features(
    dayOfWeek: nat,
    rate7: real,
    rate14: real,
    rate30: real,
    daysSinceLastAttendance: nat,
    consecutiveAbsences: nat)

  /** No present row is dated after `d`. */
  predicate LatestPresent(rows: seq<Row>, d: Date) {
    forall j :: 0 <= j < |rows| && rows[j].present ==> rows[j].date <= d
  }

  /** The latest present date is the date of any present row that no present
      row is later than. */
  lemma LatestPresentIsMax(rows: seq<Row>)
    ensures forall k :: 0 <= k < |rows| && rows[k].present && LatestPresent(rows, rows[k].date) ==>
      MaxPresentDate(rows) == Some(rows[k].date)
  {
    var m := MaxPresentDate(rows);
    forall k | 0 <= k < |rows| && rows[k].present && LatestPresent(rows, rows[k].date)
      ensures m == Some(rows[k].date)
    {
      var k' :| 0 <= k' < |rows| && rows[k'].present && rows[k'].date == m.value;
      assert rows[k'].date <= rows[k].date;
    }
  }

  /** Days-since value used when the recent rows hold no present row. */
  const NoRecentPresenceDays: nat := 15

  /** The features computed from a non-empty list of recent open-day rows:
      the 7/14/30-row presence rates, the working days from the latest
      present row to the target (15 if none) and the trailing absences. */
  function RecentFeatures(recent: seq<Row>, target: Date): (f: Features)
    requires |recent| > 0
    ensures f.dayOfWeek == Weekday(target)
    ensures f.rate7 == Rate(Seqs.Last(recent, 7)) && f.rate14 == Rate(Seqs.Last(recent, 14)) && f.rate30 == Rate(recent)
    ensures 0.0 <= f.rate7 <= 1.0 && 0.0 <= f.rate14 <= 1.0 && 0.0 <= f.rate30 <= 1.0
    ensures f.consecutiveAbsences == TrailingAbsences(recent) <= |recent|
    ensures forall k :: |recent| - f.consecutiveAbsences <= k < |recent| ==> !recent[k].present
    ensures f.consecutiveAbsences < |recent| ==> recent[|recent| - 1 - f.consecutiveAbsences].present
    ensures forall k :: 0 <= k < |recent| && recent[k].present && LatestPresent(recent, recent[k].date) ==>
      f.daysSinceLastAttendance == CountOpen(recent[k].date, target)
    ensures (forall k :: 0 <= k < |recent| ==> !recent[k].present) <==>
      f.daysSinceLastAttendance == NoRecentPresenceDays && f.consecutiveAbsences == |recent|
  {
    LatestPresentIsMax(recent);
    var days := match MaxPresentDate(recent) case None => NoRecentPresenceDays case Some(d) => CountOpen(d, target);
    Features(Weekday(target), Rate(Seqs.Last(recent, 7)), Rate(Seqs.Last(recent, 14)), Rate(recent), days, TrailingAbsences(recent))
  }

  /** The target-record branch of `predict_attendance`: the features of the
      last 30 open-day rows up to the target, or the fixed defaults when
      there are none. */
  function TargetFeatures(rows: seq<Row>, target: Date): (f: Features)
    ensures f.dayOfWeek == Weekday(target)
    ensures var recent := Seqs.Last(OpenRowsUpTo(rows, target), 30);
      |recent| == 0 ==> f == Features(Weekday(target), 0.7, 0.7, 0.7, 1, 0)
    ensures var recent := Seqs.Last(OpenRowsUpTo(rows, target), 30);
      |recent| > 0 ==> f == RecentFeatures(recent, target)
  {
    var recent := Seqs.Last(OpenRowsUpTo(rows, target), 30);
    if |recent| == 0 then Features(Weekday(target), 0.7, 0.7, 0.7, 1, 0)
    else RecentFeatures(recent, target)
  }

  /** How `predict_attendance` ends before any model output. */
  datatype Prediction =
    | CollegeClosed            // 'College Closed' with confidence 1.0
    | Unavailable              // the function returns None
    | DefaultPresent           // no history: 'Present' with confidence 0.5
    | Ready(features: Features)

  /** The branch structure of `predict_attendance`: a weekend target date
      is answered before the model or the data are touched; a model that
      cannot be loaded or data that cannot be read give no prediction; a
      student with no rows gets the optimistic default. */
  function PredictAttendance(target: Date, modelReady: bool, history: Option<seq<Row>>): (p: Prediction)
    ensures IsCollegeClosed(target) <==> p == CollegeClosed
    ensures p == Unavailable <==> !IsCollegeClosed(target) && (!modelReady || history.None?)
    ensures p == DefaultPresent <==> !IsCollegeClosed(target) && modelReady && history == Some([])
    ensures p.Ready? ==> history.Some? && |history.value| > 0 && p.features == TargetFeatures(history.value, target)
    ensures p.Ready? ==> p.features.dayOfWeek < 5
  {
    if IsCollegeClosed(target) then CollegeClosed
    else if !modelReady then Unavailable
    else match history
      case None => Unavailable
      case Some(rows) => if |rows| == 0 then DefaultPresent else Ready(TargetFeatures(rows, target))
  }

  // ---------------------------------------------------------------------
  // Reason text
  // ---------------------------------------------------------------------

  /** The remarks `_generate_prediction_reason` can make. */
  datatype Reason =
    | HighRecentRate | LowRecentRate
    | MondayPattern | FridayPattern
    | LongAbsence | AttendingRegularly
    | LongGap | AttendedRecently
    | OverallPatterns

  function ReasonText(r: Reason): string {
    match r
    case HighRecentRate => "has high recent attendance rate"
    case LowRecentRate => "has low recent attendance rate"
    case MondayPattern => "Mondays typically have different attendance patterns"
    case FridayPattern => "Fridays typically have different attendance patterns"
    case LongAbsence => "has been absent for several consecutive working days"
    case AttendingRegularly => "has been attending regularly"
    case LongGap => "hasn't attended for over a week (working days)"
    case AttendedRecently => "attended recently"
    case OverallPatterns => "based on overall attendance patterns"
  }

  /** Which check a remark comes from, in the order the checks are made:
      rate, day, streak, gap, then the fallback. */
  function Rank(r: Reason): nat {
    match r
    case HighRecentRate | LowRecentRate => 0
    case MondayPattern | FridayPattern => 1
    case LongAbsence | AttendingRegularly => 2
    case LongGap | AttendedRecently => 3
    case OverallPatterns => 4
  }

  const LowSuffix: string := " (low confidence prediction)"
  const HighSuffix: string := " (high confidence prediction)"

  /** The remarks appear in strictly increasing check order. */
  predicate Ranked(rs: seq<Reason>) {
    forall i, j :: 0 <= i < j < |rs| ==> Rank(rs[i]) < Rank(rs[j])
  }

  /** Something about the features is worth a remark. */
  predicate Notable(f: Features) {
    || f.rate7 > 0.8 || f.rate7 < 0.3
    || f.dayOfWeek == 0 || f.dayOfWeek == 4
    || f.consecutiveAbsences > 3 || f.consecutiveAbsences == 0
    || f.daysSinceLastAttendance > 5 || f.daysSinceLastAttendance <= 1
  }

  /** When each remark applies, read off the thresholds of
      `_generate_prediction_reason`. */
  predicate Applies(r: Reason, f: Features) {
    match r
    case HighRecentRate => f.rate7 > 0.8
    case LowRecentRate => f.rate7 < 0.3
    case MondayPattern => f.dayOfWeek == 0
    case FridayPattern => f.dayOfWeek == 4
    case LongAbsence => f.consecutiveAbsences > 3
    case AttendingRegularly => f.consecutiveAbsences == 0
    case LongGap => f.daysSinceLastAttendance > 5
    case AttendedRecently => f.daysSinceLastAttendance <= 1
    case OverallPatterns => !Notable(f)
  }

  /** Appending the remark of the next check keeps the remarks in check
      order and makes them exactly the applicable remarks of the checks so
      far. */
  lemma RankedAppend(a: seq<Reason>, b: seq<Reason>, k: nat, f: Features)
    requires Ranked(a) && (forall x :: x in a <==> Rank(x) < k && Applies(x, f))
    requires |b| <= 1 && (forall x :: x in b <==> Rank(x) == k && Applies(x, f))
    ensures Ranked(a + b) && (forall x :: x in a + b <==> Rank(x) <= k && Applies(x, f))
  {
    forall i, j | 0 <= i < j < |a + b|
      ensures Rank((a + b)[i]) < Rank((a + b)[j])
    {
      if j >= |a| {
        assert (a + b)[i] == a[i] && a[i] in a;
        assert (a + b)[j] == b[j - |a|] && b[j - |a|] in b;
      }
    }
  }

  /** The remark on the 7-row rate, if any. */
  function RateRemark(f: Features): (p: seq<Reason>)
    ensures |p| <= 1 && forall x :: x in p <==> Rank(x) == 0 && Applies(x, f)
  {
    if f.rate7 > 0.8 then [HighRecentRate] else if f.rate7 < 0.3 then [LowRecentRate] else []
  }

  /** The remark on the target's weekday, if any. */
  function DayRemark(f: Features): (p: seq<Reason>)
    ensures |p| <= 1 && forall x :: x in p <==> Rank(x) == 1 && Applies(x, f)
  {
    if f.dayOfWeek == 0 then [MondayPattern] else if f.dayOfWeek == 4 then [FridayPattern] else []
  }

  /** The remark on the absence streak, if any. */
  function StreakRemark(f: Features): (p: seq<Reason>)
    ensures |p| <= 1 && forall x :: x in p <==> Rank(x) == 2 && Applies(x, f)
  {
    if f.consecutiveAbsences > 3 then [LongAbsence] else if f.consecutiveAbsences == 0 then [AttendingRegularly] else []
  }

  /** The remark on the working days since attendance, if any. */
  function GapRemark(f: Features): (p: seq<Reason>)
    ensures |p| <= 1 && forall x :: x in p <==> Rank(x) == 3 && Applies(x, f)
  {
    if f.daysSinceLastAttendance > 5 then [LongGap] else if f.daysSinceLastAttendance <= 1 then [AttendedRecently] else []
  }

  /** The reasons collected, in order: one for the 7-day rate, one for
      Monday or Friday, one for the absence streak, one for the gap since
      attendance; the fallback only when none applies.  Exactly the remarks
      that apply are made, each check contributing at most one. */
  function Reasons(f: Features): (rs: seq<Reason>)
    ensures 1 <= |rs| <= 4
    ensures forall x :: x in rs <==> Applies(x, f)
    ensures Ranked(rs)
    ensures rs == [OverallPatterns] <==> !Notable(f)
  {
    var rate := RateRemark(f);
    var day := DayRemark(f);
    var streak := StreakRemark(f);
    var gap := GapRemark(f);
    RankedAppend([], rate, 0, f);
    assert [] + rate == rate;
    RankedAppend(rate, day, 1, f);
    RankedAppend(rate + day, streak, 2, f);
    RankedAppend(rate + day + streak, gap, 3, f);
    var found := rate + day + streak + gap;
    NotableIffRemarks(found, f);
    assert OverallPatterns !in found;
    if found == [] then [OverallPatterns] else found
  }

  /** Something is notable exactly when some check made a remark. */
  lemma NotableIffRemarks(found: seq<Reason>, f: Features)
    requires forall x :: x in found <==> Rank(x) <= 3 && Applies(x, f)
    ensures found == [] <==> !Notable(f)
  {
    if found != [] {
      assert found[0] in found;
      assert Applies(found[0], f) && found[0] != OverallPatterns;
    } else {
      assert HighRecentRate !in found && LowRecentRate !in found;
      assert MondayPattern !in found && FridayPattern !in found;
      assert LongAbsence !in found && AttendingRegularly !in found;
      assert LongGap !in found && AttendedRecently !in found;
    }
  }

  /** The remark a reason text starts with: the rate when it is remarkable. */
  lemma RateRemarkFirst(f: Features)
    ensures f.rate7 > 0.8 ==> Reasons(f)[0] == HighRecentRate
    ensures f.rate7 < 0.3 ==> Reasons(f)[0] == LowRecentRate
  {
    var rs := Reasons(f);
    var r := if f.rate7 > 0.8 then HighRecentRate else LowRecentRate;
    if f.rate7 > 0.8 || f.rate7 < 0.3 {
      assert Applies(r, f);
      var k :| 0 <= k < |rs| && rs[k] == r;
      if k > 0 {
        assert Rank(rs[0]) < Rank(rs[k]);
      }
    }
  }

  function Join(parts: seq<string>, sep: string): string {
    if |parts| == 0 then ""
    else if |parts| == 1 then parts[0]
    else parts[0] + sep + Join(parts[1..], sep)
  }

  /** The confidence remark: low below 0.6, high above 0.8, none between. */
  function ConfidenceSuffix(confidence: real): (s: string)
    ensures s == LowSuffix <==> confidence < 0.6
    ensures s == HighSuffix <==> confidence > 0.8
    ensures s == "" <==> 0.6 <= confidence <= 0.8
  {
    if confidence < 0.6 then LowSuffix
    else if confidence > 0.8 then HighSuffix
    else ""
  }

  function Texts(rs: seq<Reason>): (ts: seq<string>)
    ensures |ts| == |rs| && forall k :: 0 <= k < |rs| ==> ts[k] == ReasonText(rs[k])
  {
    seq(|rs|, k requires 0 <= k < |rs| => ReasonText(rs[k]))
  }

  /** `_generate_prediction_reason`: "Student " followed by the first one or
      two reasons and the confidence remark. */
  function GenerateReason(f: Features, confidence: real): (text: string)
    ensures var rs := Reasons(f);
      |rs| == 1 ==> text == "Student " + ReasonText(rs[0]) + ConfidenceSuffix(confidence)
    ensures var rs := Reasons(f);
      |rs| >= 2 ==> text == "Student " + ReasonText(rs[0]) + ", " + ReasonText(rs[1]) + ConfidenceSuffix(confidence)
  {
    ReasonLine(Reasons(f), confidence)
  }

  /** The sentence for a non-empty list of remarks: the first one or two
      joined by a comma, then the confidence remark. */
  function ReasonLine(rs: seq<Reason>, confidence: real): (text: string)
    requires |rs| >= 1
    ensures |rs| == 1 ==> text == "Student " + ReasonText(rs[0]) + ConfidenceSuffix(confidence)
    ensures |rs| >= 2 ==> text == "Student " + ReasonText(rs[0]) + ", " + ReasonText(rs[1]) + ConfidenceSuffix(confidence)
  {
    var shown := rs[..if |rs| < 2 then |rs| else 2];
    JoinShown(rs, shown);
    "Student " + Join(Texts(shown), ", ") + ConfidenceSuffix(confidence)
  }

  /** Joining the texts of the first one or two remarks. */
  lemma JoinShown(rs: seq<Reason>, shown: seq<Reason>)
    requires |rs| >= 1 && shown == rs[..if |rs| < 2 then |rs| else 2]
    ensures |rs| == 1 ==> Join(Texts(shown), ", ") == ReasonText(rs[0])
    ensures |rs| >= 2 ==> Join(Texts(shown), ", ") == ReasonText(rs[0]) + ", " + ReasonText(rs[1])
  {
    var ts := Texts(shown);
    if |rs| >= 2 {
      assert ts[1..] == [ts[1]];
    }
  }

  /** On a Monday or a Friday the day remark is printed: second after a rate
      remark, first when the 7-row rate is unremarkable. */
  lemma {:induction false} DayRemarkPrinted(f: Features, confidence: real)
    requires f.dayOfWeek == 0 || f.dayOfWeek == 4
    ensures var day := if f.dayOfWeek == 0 then MondayPattern else FridayPattern;
      var rs := Reasons(f);
      && (f.rate7 > 0.8 || f.rate7 < 0.3 ==>
            && |rs| >= 2 && rs[1] == day
            && GenerateReason(f, confidence) == "Student " + ReasonText(rs[0]) + ", " + ReasonText(day) + ConfidenceSuffix(confidence))
      && (0.3 <= f.rate7 <= 0.8 ==> rs[0] == day)
  {
    var rs := Reasons(f);
    var day := if f.dayOfWeek == 0 then MondayPattern else FridayPattern;
    assert Applies(day, f);
    var k :| 0 <= k < |rs| && rs[k] == day;
    if f.rate7 > 0.8 || f.rate7 < 0.3 {
      RateRemarkFirst(f);
      assert Rank(rs[0]) == 0 && k != 0;
    } else if k > 0 {
      assert Rank(rs[0]) < Rank(rs[k]);
      assert rs[0] in rs && Applies(rs[0], f);
    }
  }

  /** With nothing notable about the student the text is the fallback, and a
      confident prediction says so; otherwise the first two remarks are used. */
  lemma ReasonScenarios()
    ensures Reasons(Features(2, 0.5, 0.5, 0.5, 3, 2)) == [OverallPatterns]
    ensures GenerateReason(Features(2, 0.5, 0.5, 0.5, 3, 2), 0.9) == "Student " + ReasonText(OverallPatterns) + HighSuffix
    ensures Reasons(Features(0, 0.9, 0.9, 0.9, 1, 0)) == [HighRecentRate, MondayPattern, AttendingRegularly, AttendedRecently]
    ensures GenerateReason(Features(0, 0.9, 0.9, 0.9, 1, 0), 0.7)
         == "Student " + ReasonText(HighRecentRate) + ", " + ReasonText(MondayPattern)
  {
    var rs := Reasons(Features(0, 0.9, 0.9, 0.9, 1, 0));
    assert rs[..2] == [HighRecentRate, MondayPattern];
    var ts := Texts(rs[..2]);
    assert ts == [ReasonText(HighRecentRate), ReasonText(MondayPattern)];
    assert Join(ts, ", ") == ReasonText(HighRecentRate) + ", " + ReasonText(MondayPattern) by {
      assert ts[1..] == [ReasonText(MondayPattern)];
    }
    assert ConfidenceSuffix(0.7) == "";
  }
}

=== FILE: blink_gate.dfy ===
/** The per-face part of the camera loop: the identity cut-off, the liveness
    gate that consults the challenge state machine, the blink counter and the
    confirmation it fires, and the hand-off that resets verification after a
    confirmation.  The closing lemma shows that a second confirmation for the
    same subject needs both a fresh liveness pass and the display cooldown. */
module BlinkGate {
  import opened Outcomes
  import Config
  import AntiSpoof
  import FrameLoop

  const Unknown: string := "Unknown"
  /** `compare_faces` tolerance: a known encoding matches within this distance. */
  const MatchTolerance: real := 0.6
  /** Minimum `(1 - distance) * 100` for a match to name the subject. */
  const RecognitionAccuracy: real := 50.0
  /** Seconds after which an unsampled frame still re-runs verification. */
  const ReverifyInterval: real := 0.5
  /** Pixels within which a dlib face and a detection box are the same face. */
  const DlibMatchRadius: int := 30

  // ---------------------------------------------------------------------
  // Identity cut-off
  // ---------------------------------------------------------------------

  /** Index of the first smallest distance, as numpy's `argmin`. */
  function ArgMin(ds: seq<real>): (i: nat)
    requires |ds| > 0
    ensures i < |ds|
    ensures forall j :: 0 <= j < |ds| ==> ds[i] <= ds[j]
    ensures forall j :: 0 <= j < i ==> ds[j] > ds[i]
  {
    if |ds| == 1 then 0
    else
      var k := ArgMin(ds[..|ds| - 1]);
      if ds[|ds| - 1] < ds[k] then |ds| - 1 else k
  }

  datatype Identity = Identity(userId: string, accuracy: real, bestIndex: int)

  /** The recognition step of the frame loop: the closest enrolled encoding
      names the face when it is within the tolerance and its accuracy is at
      least 50%.  The accuracy bar is the stricter of the two, so a face is
      named exactly when its closest distance is at most 0.5. */
  function IdentifyFace(distances: seq<real>, names: seq<string>): (r: Identity)
    requires |names| == |distances|
    ensures |distances| == 0 ==> r == Identity(Unknown, 0.0, -1)
    ensures |distances| > 0 ==> r.bestIndex == ArgMin(distances)
    ensures |distances| > 0 ==>
      r.accuracy == if distances[r.bestIndex] <= MatchTolerance then (1.0 - distances[r.bestIndex]) * 100.0 else 0.0
    ensures |distances| > 0 && distances[r.bestIndex] <= 0.5 ==> r.userId == names[r.bestIndex]
    ensures |distances| > 0 && distances[r.bestIndex] > 0.5 ==> r.userId == Unknown
  {
    if |distances| == 0 then Identity(Unknown, 0.0, -1)
    else
      var best := ArgMin(distances);
      if distances[best] <= MatchTolerance then
        var accuracy := (1.0 - distances[best]) * 100.0;
        Identity(if accuracy >= RecognitionAccuracy then names[best] else Unknown, accuracy, best)
      else Identity(Unknown, 0.0, best)
  }

  // ---------------------------------------------------------------------
  // Pairing a detection box with a landmark face
  // ---------------------------------------------------------------------

  function Abs(x: int): nat {
    if x < 0 then -x else x
  }

  /** A dlib face whose centre lies within 30 pixels of the box centre on both axes. */
  predicate Near(face: FrameLoop.Rect, box: FrameLoop.Box) {
    && Abs((face.left + face.right) / 2 - (box.left + box.right) / 2) < DlibMatchRadius
    && Abs((face.top + face.bottom) / 2 - (box.top + box.bottom) / 2) < DlibMatchRadius
  }

  /** The first dlib face near the box, if any. */
  function MatchDlibFace(faces: seq<FrameLoop.Rect>, box: FrameLoop.Box): (r: Option<nat>)
    ensures r.Some? ==> r.value < |faces| && Near(faces[r.value], box)
    ensures r.Some? ==> forall j :: 0 <= j < r.value ==> !Near(faces[j], box)
    ensures r.None? ==> forall j :: 0 <= j < |faces| ==> !Near(faces[j], box)
  {
    if |faces| == 0 then None
    else if Near(faces[0], box) then Some(0)
    else
      match MatchDlibFace(faces[1..], box)
      case None =>
        assert forall j :: 1 <= j < |faces| ==> faces[j] == faces[1..][j - 1];
        None
      case Some(k) =>
        assert forall j :: 1 <= j < k + 1 ==> faces[j] == faces[1..][j - 1];
        Some(k + 1)
  }

  // ---------------------------------------------------------------------
  // Blink counter and confirmation
  // ---------------------------------------------------------------------

  /** The loop's per-subject record. */
  datatype BlinkState = BlinkState(blinkCounter: nat, lastAttendanceTime: real, lastVerification: real, canBlink: bool)

  const InitialBlink: BlinkState := BlinkState(0, 0.0, 0.0, false)

  /** One eye reading: a closed eye extends the run; an open eye ends it and
      fires a confirmation when the run was long enough, the cooldown has
      passed and the subject is known. */
  function BlinkStep(u: BlinkState, userId: string, ear: real, threshold: real, minBlinkDuration: nat, now: real): (r: (BlinkState, bool))
    ensures ear < threshold ==> r == (u.(blinkCounter := u.blinkCounter + 1), false)
    ensures ear >= threshold ==> r.0.blinkCounter == 0
    ensures r.1 <==>
      && ear >= threshold
      && u.blinkCounter >= minBlinkDuration
      && now - u.lastAttendanceTime > Config.DisplayTime
      && userId != Unknown
    ensures r.1 ==> r.0 == BlinkState(0, now, u.lastVerification, false)
    ensures !r.1 ==> r.0 == u.(blinkCounter := r.0.blinkCounter)
  {
    if ear < threshold then (u.(blinkCounter := u.blinkCounter + 1), false)
    else
      var fire := u.blinkCounter >= minBlinkDuration && now - u.lastAttendanceTime > Config.DisplayTime && userId != Unknown;
      var u1 := if fire then u.(lastAttendanceTime := now, canBlink := false) else u;
      (u1.(blinkCounter := 0), fire)
  }

  /** Two closed frames and then an open one, for a subject not confirmed in
      the last ten seconds, fire exactly one confirmation, on the open frame,
      and leave blinking locked; a single closed frame fires nothing. */
  lemma BlinkScenario(u: BlinkState, id: string, threshold: real, now: real)
    requires id != Unknown && u.blinkCounter == 0 && u.canBlink
    requires now - u.lastAttendanceTime > Config.DisplayTime + 1.0
    ensures var (u1, f1) := BlinkStep(u, id, threshold - 0.1, threshold, 2, now);
      var (u2, f2) := BlinkStep(u1, id, threshold - 0.1, threshold, 2, now + 0.1);
      var (u3, f3) := BlinkStep(u2, id, threshold, threshold, 2, now + 0.2);
      !f1 && !f2 && f3 && !u3.canBlink && u3.blinkCounter == 0
    ensures var (u1, f1) := BlinkStep(u, id, threshold - 0.1, threshold, 2, now);
      var (u2, f2) := BlinkStep(u1, id, threshold, threshold, 2, now + 0.1);
      !f1 && !f2 && u2.canBlink
  {
  }

  // ---------------------------------------------------------------------
  // One face on a processing frame
  // ---------------------------------------------------------------------

  /** The enrolled subjects, as parallel lists. */
  datatype Roster = Roster(names: seq<string>, rollNumbers: seq<string>, courses: seq<string>, semesters: seq<string>)

  predicate RosterOk(roster: Roster) {
    && |roster.rollNumbers| == |roster.names|
    && |roster.courses| == |roster.names|
    && |roster.semesters| == |roster.names|
  }

  /** What the loop learns about one cached face from the collaborators. */
  datatype FaceInput = FaceInput(
    box: FrameLoop.Box,        // location in frame coordinates
    distances: seq<real>,      // distance to each enrolled encoding
    regionSize: nat,           // pixel count of the padded face crop
    imageScore: real,          // spoof score the image statistics give the crop
    challenge: string,         // the draw a re-armed challenge would use
    ear: real)                 // two-eye aspect ratio of the matched landmarks

  /** One processed face with the frame facts it was processed under. */
  datatype FaceEvent = FaceEvent(dlibFaces: seq<FrameLoop.Rect>, face: FaceInput, now: real, shouldVerify: bool)

  predicate EventOk(roster: Roster, e: FaceEvent) {
    RosterOk(roster) && |e.face.distances| == |roster.names| && e.face.challenge in Config.ChallengeTypes
  }

  /** The loop's whole per-subject state: the challenge records and its own records. */
  datatype Session = Session(spoof: AntiSpoof.Store, users: map<string, BlinkState>)

  const InitialSession: Session := Session(map[], map[])

  /** The attendance event handed to the recording collaborator. */
  datatype Confirmation = Confirmation(userId: string, rollNumber: string, course: string, semester: string, time: real)

  datatype TickResult = TickResult(
    session: Session,
    identity: Identity,
    livenessPassed: bool,          // the challenge passed on this very face
    confirmation: Option<Confirmation>)

  function BlinkOf(s: Session, id: string): BlinkState {
    if id in s.users then s.users[id] else InitialBlink
  }

  function LastAttendance(s: Session, id: string): real {
    BlinkOf(s, id).lastAttendanceTime
  }

  /** No verification is on record for the subject. */
  predicate Disarmed(s: Session, id: string) {
    id in s.spoof ==> !s.spoof[id].verified
  }

  /** What the liveness gate decided for one face. */
  datatype Gate = Gate(spoof: AntiSpoof.Store, user: BlinkState, canBlinkNow: bool, livenessPassed: bool)

  predicate SpoofOthersUnchanged(before: AntiSpoof.Store, after: AntiSpoof.Store, id: string) {
    && after.Keys <= before.Keys + {id}
    && forall k :: k in before && k != id ==> k in after && after[k] == before[k]
  }

  /** The anti-spoofing branch of the frame loop for a known subject: a
      current verification unlocks blinking; otherwise blinking is locked and,
      on a sampled frame or half a second after the last attempt, this frame is
      verified, re-arming a challenge when none is open.  The cached-status
      branch reads the lock it has just set, so it never unlocks blinking. */
  function LivenessGate(spoof: AntiSpoof.Store, u: BlinkState, id: string, f: FaceInput, now: real, shouldVerify: bool): (g: Gate)
    requires f.challenge in Config.ChallengeTypes
    ensures id == Unknown ==> g == Gate(spoof, u, true, false)
    ensures id != Unknown ==>
      && (g.canBlinkNow <==> AntiSpoof.IsUserVerified(spoof, id, now).1 || g.livenessPassed)
      && g.user.canBlink == g.canBlinkNow
      && (g.livenessPassed ==> !AntiSpoof.IsUserVerified(spoof, id, now).1 && id in g.spoof && g.spoof[id].verified)
      && (g.canBlinkNow ==> id in g.spoof)
    ensures g.user.blinkCounter == u.blinkCounter && g.user.lastAttendanceTime == u.lastAttendanceTime
    ensures SpoofOthersUnchanged(spoof, g.spoof, id)
    ensures !g.livenessPassed && (id in spoof ==> !spoof[id].verified) ==> (id in g.spoof ==> !g.spoof[id].verified)
    ensures AntiSpoof.StoreValid(spoof) ==> AntiSpoof.StoreValid(g.spoof)
  {
    if id == Unknown then Gate(spoof, u, true, false)
    else
      var (spoof1, verified) := AntiSpoof.IsUserVerified(spoof, id, now);
      if verified then Gate(spoof1, u.(canBlink := true), true, false)
      else if shouldVerify || now - u.lastVerification > ReverifyInterval then
        var u1 := u.(canBlink := false, lastVerification := now);
        var box := AntiSpoof.FaceBox(f.box.left, f.box.top, f.box.right, f.box.bottom);
        var (spoof2, verdict) := AntiSpoof.VerifyUserLiveness(spoof1, id, now, box, f.regionSize, f.imageScore);
        if verdict.verified then Gate(spoof2, u1.(canBlink := true), true, true)
        else
          var spoof3 := if !spoof2[id].challengeActive then AntiSpoof.StartChallengeForUser(spoof2, id, now, f.challenge).0 else spoof2;
          Gate(spoof3, u1, false, false)
      else
        var u1 := u.(canBlink := false);
        Gate(spoof1, u1, u1.canBlink, false)
  }

  /** The gate's pass is the challenge machine's verdict: a known subject
      without a current verification passes exactly when this frame is due
      and `VerifyUserLiveness` verifies it, and a failure with no challenge
      open re-arms one. */
  lemma GateFollowsChallenge(spoof: AntiSpoof.Store, u: BlinkState, id: string, f: FaceInput, now: real, shouldVerify: bool)
    requires f.challenge in Config.ChallengeTypes
    requires id != Unknown
    ensures var g := LivenessGate(spoof, u, id, f, now, shouldVerify);
      var (spoof1, current) := AntiSpoof.IsUserVerified(spoof, id, now);
      var due := !current && (shouldVerify || now - u.lastVerification > ReverifyInterval);
      var box := AntiSpoof.FaceBox(f.box.left, f.box.top, f.box.right, f.box.bottom);
      var (spoof2, verdict) := AntiSpoof.VerifyUserLiveness(spoof1, id, now, box, f.regionSize, f.imageScore);
      && (g.livenessPassed <==> due && verdict.verified)
      && (due && !verdict.verified && !spoof2[id].challengeActive ==>
            g.spoof == AntiSpoof.StartChallengeForUser(spoof2, id, now, f.challenge).0)
      && (due && verdict.verified ==> g.spoof == spoof2)
      && (due && !verdict.verified && spoof2[id].challengeActive ==> g.spoof == spoof2)
      && (!due ==> g.spoof == spoof1)
  {
  }

  /** One face of a processing frame: identify it, run the liveness gate,
      count the blink on the matched landmark face, and on a confirmation
      stamp the time and hand the subject back to the challenge machine. */
  function FaceTick(s: Session, roster: Roster, e: FaceEvent, threshold: real, minBlinkDuration: nat): (r: TickResult)
    requires EventOk(roster, e)
    ensures r.identity == IdentifyFace(e.face.distances, roster.names)
    ensures r.livenessPassed ==> r.identity.userId != Unknown
  {
    var f := e.face;
    var identity := IdentifyFace(f.distances, roster.names);
    var id := identity.userId;
    var u := BlinkOf(s, id);
    var g := LivenessGate(s.spoof, u, id, f, e.now, e.shouldVerify);
    var matched := if g.canBlinkNow && |e.dlibFaces| > 0 then MatchDlibFace(e.dlibFaces, f.box) else None;
    if matched.None? then
      TickResult(Session(g.spoof, s.users[id := g.user]), identity, g.livenessPassed, None)
    else
      var (u1, fired) := BlinkStep(g.user, id, f.ear, threshold, minBlinkDuration, e.now);
      if fired then
        var b := identity.bestIndex;
        var confirmation := Confirmation(id, roster.rollNumbers[b], roster.courses[b], roster.semesters[b], e.now);
        var spoof1 := AntiSpoof.ResetUserVerification(g.spoof, id);
        TickResult(Session(spoof1, s.users[id := u1]), identity, g.livenessPassed, Some(confirmation))
      else
        TickResult(Session(g.spoof, s.users[id := u1]), identity, g.livenessPassed, None)
  }

  /** A face touches only the records of the subject it was identified as. */
  lemma FaceTickFrame(s: Session, roster: Roster, e: FaceEvent, threshold: real, minBlinkDuration: nat)
    requires EventOk(roster, e)
    ensures var r := FaceTick(s, roster, e, threshold, minBlinkDuration);
      var id := r.identity.userId;
      && SpoofOthersUnchanged(s.spoof, r.session.spoof, id)
      && r.session.users.Keys == s.users.Keys + {id}
      && (forall k :: k in s.users && k != id ==> r.session.users[k] == s.users[k])
  {
    var r := FaceTick(s, roster, e, threshold, minBlinkDuration);
    var id := r.identity.userId;
    var g := LivenessGate(s.spoof, BlinkOf(s, id), id, e.face, e.now, e.shouldVerify);
    FaceTickShape(s, roster, e, threshold, minBlinkDuration);
    if r.confirmation.Some? {
      ResetKeepsOthers(g.spoof, id);
    }
  }

  /** The spoof store after a face is the gate's, reset on a confirmation,
      and the loop's map changes at the face's subject only. */
  lemma FaceTickShape(s: Session, roster: Roster, e: FaceEvent, threshold: real, minBlinkDuration: nat)
    requires EventOk(roster, e)
    ensures var r := FaceTick(s, roster, e, threshold, minBlinkDuration);
      var id := r.identity.userId;
      var g := LivenessGate(s.spoof, BlinkOf(s, id), id, e.face, e.now, e.shouldVerify);
      && r.session.spoof == (if r.confirmation.Some? then AntiSpoof.ResetUserVerification(g.spoof, id) else g.spoof)
      && id in r.session.users && r.session.users == s.users[id := r.session.users[id]]
  {
  }

  /** A reset touches no other subject's record. */
  lemma ResetKeepsOthers(spoof: AntiSpoof.Store, id: string)
    ensures SpoofOthersUnchanged(spoof, AntiSpoof.ResetUserVerification(spoof, id), id)
  {
  }

  /** A confirmation names a known subject with its roster details and the
      current time; it needs the cooldown, a long enough closed-eye run ended
      by an open eye, and a verification that is current or was just earned;
      and it leaves the subject unverified, with no open challenge, blinking
      locked and the counter cleared. */
  lemma FaceTickConfirmation(s: Session, roster: Roster, e: FaceEvent, threshold: real, minBlinkDuration: nat)
    requires EventOk(roster, e)
    ensures var r := FaceTick(s, roster, e, threshold, minBlinkDuration);
      var id := r.identity.userId;
      r.confirmation.Some? ==>
        && id != Unknown
        && 0 <= r.identity.bestIndex < |roster.names|
        && r.confirmation.value == Confirmation(id, roster.rollNumbers[r.identity.bestIndex], roster.courses[r.identity.bestIndex],
                                                roster.semesters[r.identity.bestIndex], e.now)
        && e.now - LastAttendance(s, id) > Config.DisplayTime
        && BlinkOf(s, id).blinkCounter >= minBlinkDuration && e.face.ear >= threshold
        && (AntiSpoof.IsUserVerified(s.spoof, id, e.now).1 || r.livenessPassed)
        && id in r.session.spoof && !r.session.spoof[id].verified && !r.session.spoof[id].challengeActive
        && BlinkOf(r.session, id).blinkCounter == 0 && !BlinkOf(r.session, id).canBlink
  {
  }

  /** The last attendance time moves only on a confirmation, and then to now. */
  lemma FaceTickLastAttendance(s: Session, roster: Roster, e: FaceEvent, threshold: real, minBlinkDuration: nat, v: string)
    requires EventOk(roster, e)
    ensures var r := FaceTick(s, roster, e, threshold, minBlinkDuration);
      LastAttendance(r.session, v) == if r.confirmation.Some? && v == r.identity.userId then e.now else LastAttendance(s, v)
  {
  }

  /** A subject with no verification on record gets one only by passing a
      challenge on this face. */
  lemma FaceTickKeepsDisarmed(s: Session, roster: Roster, e: FaceEvent, threshold: real, minBlinkDuration: nat, v: string)
    requires EventOk(roster, e) && Disarmed(s, v)
    ensures var r := FaceTick(s, roster, e, threshold, minBlinkDuration);
      !(r.livenessPassed && v == r.identity.userId) ==> Disarmed(r.session, v)
  {
  }

  /** Closed-eye frames are counted only for a known subject whose
      verification is current or was just earned. */
  lemma FaceTickCountsOnlyWhenVerified(s: Session, roster: Roster, e: FaceEvent, threshold: real, minBlinkDuration: nat)
    requires EventOk(roster, e)
    ensures var r := FaceTick(s, roster, e, threshold, minBlinkDuration);
      var id := r.identity.userId;
      id != Unknown && BlinkOf(r.session, id).blinkCounter != BlinkOf(s, id).blinkCounter ==>
        AntiSpoof.IsUserVerified(s.spoof, id, e.now).1 || r.livenessPassed
  {
  }

  /** The challenge records stay well formed. */
  lemma FaceTickKeepsStoreValid(s: Session, roster: Roster, e: FaceEvent, threshold: real, minBlinkDuration: nat)
    requires EventOk(roster, e) && AntiSpoof.StoreValid(s.spoof)
    ensures AntiSpoof.StoreValid(FaceTick(s, roster, e, threshold, minBlinkDuration).session.spoof)
  {
  }

  // ---------------------------------------------------------------------
  // Runs of faces
  // ---------------------------------------------------------------------

  /** A face the roster cannot describe leaves everything as it was. */
  function Idle(s: Session): TickResult {
    TickResult(s, Identity(Unknown, 0.0, -1), false, None)
  }

  /** The loop's per-face step for a fixed roster and blink settings. */
  function Tick(roster: Roster, threshold: real, minBlinkDuration: nat): (Session, FaceEvent) -> TickResult {
    (s: Session, e: FaceEvent) => if EventOk(roster, e) then FaceTick(s, roster, e, threshold, minBlinkDuration) else Idle(s)
  }

  /** The sessions before and after each face of a run under `step`. */
  function Run(s0: Session, step: (Session, FaceEvent) -> TickResult, events: seq<FaceEvent>): (ss: seq<Session>)
    ensures |ss| == |events| + 1 && ss[0] == s0
    decreases |events|
  {
    if |events| == 0 then [s0]
    else
      var prefix := Run(s0, step, events[..|events| - 1]);
      prefix + [step(prefix[|prefix| - 1], events[|events| - 1]).session]
  }

  /** Each session of a run is the step applied to the one before. */
  lemma {:induction false} RunStep(s0: Session, step: (Session, FaceEvent) -> TickResult, events: seq<FaceEvent>, k: nat)
    requires k < |events|
    ensures Run(s0, step, events)[k + 1] == step(Run(s0, step, events)[k], events[k]).session
    decreases |events|
  {
    var init := events[..|events| - 1];
    if k < |init| {
      RunStep(s0, step, init, k);
      assert init[k] == events[k];
    }
  }

  /** The result of the face at `k` of a run. */
  function ResultAt(s0: Session, step: (Session, FaceEvent) -> TickResult, events: seq<FaceEvent>, k: nat): TickResult
    requires k < |events|
  {
    step(Run(s0, step, events)[k], events[k])
  }

  /** The face at `k` passed a liveness challenge for `id`. */
  predicate PassedAt(s0: Session, step: (Session, FaceEvent) -> TickResult, events: seq<FaceEvent>, id: string, k: nat)
    requires k < |events|
  {
    ResultAt(s0, step, events, k).livenessPassed && ResultAt(s0, step, events, k).identity.userId == id
  }

  predicate EventsChronological(events: seq<FaceEvent>) {
    forall k :: 0 < k < |events| ==> events[k - 1].now <= events[k].now
  }

  // ---------------------------------------------------------------------
  // From frames to face events
  // ---------------------------------------------------------------------

  function PairCount(pass: FrameLoop.FacePass): nat
    requires pass.Process?
  {
    if |pass.locations| < |pass.encodings| then |pass.locations| else |pass.encodings|
  }

  /** One loop frame's decision and the collaborators' facts for each face it
      pairs: one input per location paired with an encoding, boxed at that
      location. */
  datatype LoopFrame = LoopFrame(pass: FrameLoop.FacePass, inputs: seq<FaceInput>, now: real)

  predicate LoopFrameOk(f: LoopFrame) {
    f.pass.Process? ==>
      && |f.inputs| == PairCount(f.pass)
      && forall i :: 0 <= i < |f.inputs| ==> f.inputs[i].box == f.pass.locations[i]
  }

  /** The faces a frame hands to the per-face work: none on a skipped frame;
      on a processed frame one per location paired with an encoding (`zip`
      stops at the shorter list), each with the frame's landmark faces, time
      and verification flag. */
  function PassEvents(f: LoopFrame): (es: seq<FaceEvent>)
    requires LoopFrameOk(f)
    ensures f.pass.Skip? ==> es == []
    ensures f.pass.Process? ==> |es| == PairCount(f.pass) <= |f.pass.locations|
    ensures forall i :: 0 <= i < |es| ==>
      && f.pass.Process?
      && es[i].face.box == f.pass.locations[i]
      && es[i].dlibFaces == f.pass.dlibFaces && es[i].shouldVerify == f.pass.shouldVerify && es[i].now == f.now
  {
    match f.pass
    case Skip => []
    case Process(shouldVerify, _, _, dlibFaces) =>
      seq(|f.inputs|, i requires 0 <= i < |f.inputs| => FaceEvent(dlibFaces, f.inputs[i], f.now, shouldVerify))
  }

  /** The face events of a run of frames, frame after frame. */
  function LoopEvents(frames: seq<LoopFrame>): seq<FaceEvent>
    requires forall k :: 0 <= k < |frames| ==> LoopFrameOk(frames[k])
  {
    if |frames| == 0 then []
    else LoopEvents(frames[..|frames| - 1]) + PassEvents(frames[|frames| - 1])
  }

  /** Frames taken in time order hand over their faces in time order, so the
      run theorems below apply to the camera loop's own event stream. */
  lemma {:induction false} LoopEventsChronological(frames: seq<LoopFrame>)
    requires forall k :: 0 <= k < |frames| ==> LoopFrameOk(frames[k])
    requires forall k :: 0 < k < |frames| ==> frames[k - 1].now <= frames[k].now
    ensures EventsChronological(LoopEvents(frames))
    ensures |frames| > 0 ==>
      forall k :: 0 <= k < |LoopEvents(frames)| ==> LoopEvents(frames)[k].now <= frames[|frames| - 1].now
    decreases |frames|
  {
    if |frames| > 0 {
      var init := frames[..|frames| - 1];
      var last := frames[|frames| - 1];
      assert forall k :: 0 <= k < |init| ==> init[k] == frames[k];
      LoopEventsChronological(init);
      var a, b := LoopEvents(init), PassEvents(last);
      assert LoopEvents(frames) == a + b;
      assert forall k :: 0 <= k < |a| ==> a[k].now <= last.now by {
        if |init| > 0 {
          assert init[|init| - 1].now <= last.now;
        }
      }
      forall k | 0 < k < |a + b|
        ensures (a + b)[k - 1].now <= (a + b)[k].now
      {
        if k >= |a| {
          assert (a + b)[k] == b[k - |a|];
          if k > |a| {
            assert (a + b)[k - 1] == b[k - 1 - |a|];
          }
        }
      }
    }
  }

  /** A step moves a last attendance time only to the face's own time. */
  ghost predicate StampsAttendance(step: (Session, FaceEvent) -> TickResult) {
    forall s: Session, e: FaceEvent, v: string ::
      LastAttendance(step(s, e).session, v) == LastAttendance(s, v) || LastAttendance(step(s, e).session, v) == e.now
  }

  /** A step gives a disarmed subject a verification only through a pass. */
  ghost predicate KeepsDisarmed(step: (Session, FaceEvent) -> TickResult) {
    forall s: Session, e: FaceEvent, v: string ::
      Disarmed(s, v) && !(step(s, e).livenessPassed && step(s, e).identity.userId == v) ==> Disarmed(step(s, e).session, v)
  }

  /** A step's confirmations respect the cooldown, stamp the time, consume the
      verification, and need a pass when none was on record. */
  ghost predicate ConfirmsOnce(step: (Session, FaceEvent) -> TickResult) {
    forall s: Session, e: FaceEvent :: step(s, e).confirmation.Some? ==>
      && LastAttendance(step(s, e).session, step(s, e).identity.userId) == e.now
      && Disarmed(step(s, e).session, step(s, e).identity.userId)
      && e.now - LastAttendance(s, step(s, e).identity.userId) > Config.DisplayTime
      && (Disarmed(s, step(s, e).identity.userId) ==> step(s, e).livenessPassed)
  }

  /** The loop's step has all three properties. */
  lemma TickBehaves(roster: Roster, threshold: real, minBlinkDuration: nat)
    ensures StampsAttendance(Tick(roster, threshold, minBlinkDuration))
    ensures KeepsDisarmed(Tick(roster, threshold, minBlinkDuration))
    ensures ConfirmsOnce(Tick(roster, threshold, minBlinkDuration))
  {
    var step := Tick(roster, threshold, minBlinkDuration);
    forall s: Session, e: FaceEvent, v: string
      ensures LastAttendance(step(s, e).session, v) == LastAttendance(s, v) || LastAttendance(step(s, e).session, v) == e.now
    {
      assert step(s, e) == if EventOk(roster, e) then FaceTick(s, roster, e, threshold, minBlinkDuration) else Idle(s);
      if EventOk(roster, e) {
        FaceTickLastAttendance(s, roster, e, threshold, minBlinkDuration, v);
      }
    }
    forall s: Session, e: FaceEvent, v: string
      ensures Disarmed(s, v) && !(step(s, e).livenessPassed && step(s, e).identity.userId == v) ==> Disarmed(step(s, e).session, v)
    {
      assert step(s, e) == if EventOk(roster, e) then FaceTick(s, roster, e, threshold, minBlinkDuration) else Idle(s);
      if EventOk(roster, e) && Disarmed(s, v) {
        FaceTickKeepsDisarmed(s, roster, e, threshold, minBlinkDuration, v);
      }
    }
    forall s: Session, e: FaceEvent
      ensures step(s, e).confirmation.Some? ==>
        && LastAttendance(step(s, e).session, step(s, e).identity.userId) == e.now
        && Disarmed(step(s, e).session, step(s, e).identity.userId)
        && e.now - LastAttendance(s, step(s, e).identity.userId) > Config.DisplayTime
        && (Disarmed(s, step(s, e).identity.userId) ==> step(s, e).livenessPassed)
    {
      assert step(s, e) == if EventOk(roster, e) then FaceTick(s, roster, e, threshold, minBlinkDuration) else Idle(s);
      if EventOk(roster, e) {
        var r := FaceTick(s, roster, e, threshold, minBlinkDuration);
        FaceTickConfirmation(s, roster, e, threshold, minBlinkDuration);
        FaceTickLastAttendance(s, roster, e, threshold, minBlinkDuration, r.identity.userId);
      }
    }
  }

  lemma {:induction false} ChronologicalMonotone(events: seq<FaceEvent>, a: nat, b: nat)
    requires EventsChronological(events) && a <= b < |events|
    ensures events[a].now <= events[b].now
    decreases b - a
  {
    if a < b {
      ChronologicalMonotone(events, a, b - 1);
    }
  }

  /** After a confirmation of `id` at face `i`, its last attendance time never
      falls below that confirmation's time. */
  lemma {:induction false} LastAttendanceNeverDrops(s0: Session, step: (Session, FaceEvent) -> TickResult, events: seq<FaceEvent>,
                                                    id: string, i: nat, m: nat)
    requires StampsAttendance(step) && EventsChronological(events)
    requires i < m <= |events|
    requires LastAttendance(Run(s0, step, events)[i + 1], id) == events[i].now
    ensures LastAttendance(Run(s0, step, events)[m], id) >= events[i].now
    decreases m - i
  {
    if m > i + 1 {
      LastAttendanceNeverDrops(s0, step, events, id, i, m - 1);
      RunStep(s0, step, events, m - 1);
      ChronologicalMonotone(events, i, m - 1);
    }
  }

  /** After `id` is disarmed, it stays disarmed until one of its faces passes
      a challenge. */
  lemma {:induction false} DisarmedUntilLiveness(s0: Session, step: (Session, FaceEvent) -> TickResult, events: seq<FaceEvent>,
                                                 id: string, i: nat, m: nat)
    requires KeepsDisarmed(step)
    requires i < m <= |events|
    requires Disarmed(Run(s0, step, events)[i + 1], id)
    requires forall k :: i < k < m ==> !PassedAt(s0, step, events, id, k)
    ensures Disarmed(Run(s0, step, events)[m], id)
    decreases m - i
  {
    if m > i + 1 {
      DisarmedUntilLiveness(s0, step, events, id, i, m - 1);
      assert !PassedAt(s0, step, events, id, m - 1);
      RunStep(s0, step, events, m - 1);
    }
  }

  /** For any step with the three properties, two confirmations of the same
      subject are more than the display time apart and some face of that
      subject after the first and no later than the second passed a fresh
      challenge. */
  lemma RunConfirmationsNeedFreshLiveness(s0: Session, step: (Session, FaceEvent) -> TickResult, events: seq<FaceEvent>, i: nat, j: nat)
    requires StampsAttendance(step) && KeepsDisarmed(step) && ConfirmsOnce(step)
    requires EventsChronological(events) && i < j < |events|
    requires ResultAt(s0, step, events, i).confirmation.Some? && ResultAt(s0, step, events, j).confirmation.Some?
    requires ResultAt(s0, step, events, i).identity.userId == ResultAt(s0, step, events, j).identity.userId
    ensures events[j].now - events[i].now > Config.DisplayTime
    ensures exists k :: i < k <= j && PassedAt(s0, step, events, ResultAt(s0, step, events, i).identity.userId, k)
  {
    var id := ResultAt(s0, step, events, i).identity.userId;
    RunStep(s0, step, events, i);
    LastAttendanceNeverDrops(s0, step, events, id, i, j);
    if exists k :: i < k < j && PassedAt(s0, step, events, id, k) {
      var k :| i < k < j && PassedAt(s0, step, events, id, k);
      assert i < k <= j;
    } else {
      DisarmedUntilLiveness(s0, step, events, id, i, j);
      assert PassedAt(s0, step, events, id, j);
    }
  }

  /** In the camera loop, two confirmations of the same subject are more than
      the display time apart, and some face of that subject strictly after the
      first and no later than the second passed a fresh liveness challenge: a
      confirmation consumes the verification it was granted on. */
  lemma SecondConfirmationNeedsFreshLiveness(s0: Session, roster: Roster, events: seq<FaceEvent>, threshold: real,
                                             minBlinkDuration: nat, i: nat, j: nat)
    requires EventsChronological(events) && i < j < |events|
    requires var step := Tick(roster, threshold, minBlinkDuration);
      && ResultAt(s0, step, events, i).confirmation.Some? && ResultAt(s0, step, events, j).confirmation.Some?
      && ResultAt(s0, step, events, i).identity.userId == ResultAt(s0, step, events, j).identity.userId
    ensures events[j].now - events[i].now > Config.DisplayTime
    ensures var step := Tick(roster, threshold, minBlinkDuration);
      exists k :: i < k <= j && PassedAt(s0, step, events, ResultAt(s0, step, events, i).identity.userId, k)
  {
    TickBehaves(roster, threshold, minBlinkDuration);
    RunConfirmationsNeedFreshLiveness(s0, Tick(roster, threshold, minBlinkDuration), events, i, j);
  }
}

=== FILE: config.dfy ===
/** The tunable constants of the attendance system, the start-up clamp that
    keeps them sane, and the frame-rate driven performance table. */
module Config {

  // ----- blink detection -----
  const EyeArThreshold: real := 0.25
  const EyeArConsecFrames: nat := 2
  const MinBlinkDurationFrames: nat := 2
  /** Seconds before the same subject may be confirmed again. */
  const DisplayTime: real := 10.0

  // ----- calibration -----
  const EnableDynamicCalibration: bool := true
  const BaselineCalibrationFrames: nat := 20

  // ----- anti-spoofing -----
  const AntiSpoofEnabled: bool := true
  /** Seconds a single challenge stays open. */
  const ChallengeTimeout: real := 5.0
  /** Pixels of centroid travel a head movement must exceed. */
  const MotionThreshold: int := 12
  const LivenessScoreThreshold: real := 0.4
  /** Net real-looking frames needed before a challenge can pass. */
  const ConsecutiveRealFrames: nat := 8
  const ChallengeTypes: seq<string> := ["TURN_LEFT", "TURN_RIGHT", "MOVE_CLOSER", "NOD_HEAD"]

  // ----- performance -----
  const FaceDetectionFrequency: int := 5
  const VerificationFrequency: int := 3
  const ProcessingResolution: (int, int) := (480, 360)
  const EnableOpenCvOptimizations: bool := true
  const MinAcceptableFps: real := 15.0

  /** The module-level values that `validate_config` may rewrite. */
  datatype Settings = Settings(faceDetectionFrequency: int, verificationFrequency: int, eyeArThreshold: real)

  const Defaults: Settings := Settings(FaceDetectionFrequency, VerificationFrequency, EyeArThreshold)

  /** Settings that `validate_config` leaves alone. */
  predicate Validated(c: Settings) {
    && c.faceDetectionFrequency >= 1
    && c.verificationFrequency >= 1
    && 0.1 <= c.eyeArThreshold <= 0.5
  }

  /** Raise sampling frequencies below 1 to 1 and replace an eye-aspect-ratio
      threshold outside [0.1, 0.5] by 0.25. */
  function ValidateConfig(c: Settings): (r: Settings)
    ensures Validated(r)
    ensures c.faceDetectionFrequency >= 1 ==> r.faceDetectionFrequency == c.faceDetectionFrequency
    ensures c.verificationFrequency >= 1 ==> r.verificationFrequency == c.verificationFrequency
    ensures 0.1 <= c.eyeArThreshold <= 0.5 ==> r.eyeArThreshold == c.eyeArThreshold
    ensures !(0.1 <= c.eyeArThreshold <= 0.5) ==> r.eyeArThreshold == 0.25
  {
    var detect := if c.faceDetectionFrequency < 1 then 1 else c.faceDetectionFrequency;
    var verify := if c.verificationFrequency < 1 then 1 else c.verificationFrequency;
    var ear := if c.eyeArThreshold < 0.1 || c.eyeArThreshold > 0.5 then 0.25 else c.eyeArThreshold;
    Settings(detect, verify, ear)
  }

  /** Validation changes exactly the settings that are not already valid, so
      running it twice is the same as running it once. */
  lemma ValidateConfigFixesExactlyInvalid(c: Settings)
    ensures ValidateConfig(c) == c <==> Validated(c)
    ensures ValidateConfig(ValidateConfig(c)) == ValidateConfig(c)
  {
  }

  /** The shipped constants pass validation untouched. */
  lemma DefaultsAreValidated()
    ensures ValidateConfig(Defaults) == Defaults
  {
  }

  datatype PerformanceSettings = PerformanceSettings(
    faceDetectionFreq: int,
    verificationFreq: int,
    processingResolution: (int, int),
    useOptimization: bool)

  /** `get_performance_settings`: below the minimum acceptable rate sample
      every 8 / 6 frames at low resolution; above 25 fps every 3 / 2 frames at
      full resolution; in between (both ends included) the configured values. */
  function GetPerformanceSettings(c: Settings, currentFps: real): (p: PerformanceSettings)
    ensures currentFps < 15.0 ==> p == PerformanceSettings(8, 6, (320, 240), true)
    ensures currentFps > 25.0 ==> p == PerformanceSettings(3, 2, (480, 360), false)
    ensures 15.0 <= currentFps <= 25.0 ==>
      p == PerformanceSettings(c.faceDetectionFrequency, c.verificationFrequency, ProcessingResolution, EnableOpenCvOptimizations)
  {
    if currentFps < MinAcceptableFps then
      PerformanceSettings(8, 6, (320, 240), true)
    else if currentFps > 25.0 then
      PerformanceSettings(3, 2, (480, 360), false)
    else
      PerformanceSettings(c.faceDetectionFrequency, c.verificationFrequency, ProcessingResolution, EnableOpenCvOptimizations)
  }

  /** With the shipped settings, detection is always sampled less often than
      verification, both are at least 1, and a higher frame rate never makes
      either less frequent (this table runs opposite to the frame loop's). */
  lemma PerformanceSettingsOrdered(fpsLow: real, fpsHigh: real)
    requires fpsLow <= fpsHigh
    ensures var lo, hi := GetPerformanceSettings(Defaults, fpsLow), GetPerformanceSettings(Defaults, fpsHigh);
      && lo.faceDetectionFreq > lo.verificationFreq >= 1
      && hi.faceDetectionFreq <= lo.faceDetectionFreq
      && hi.verificationFreq <= lo.verificationFreq
  {
  }
}

=== FILE: frame_loop.dfy ===
/** The per-frame bookkeeping of the camera loop: adaptive sampling
    frequencies, the detection cache with its confidence decay, the two-slot
    stability buffer, the delayed "no face" message, and the eye-aspect-ratio
    calibration that fixes the blink threshold. */
module FrameLoop {
  import opened Outcomes
  import Config

  /** Seconds a cached detection may stand in for a fresh one. */
  const CacheLifetime: real := 1.2
  /** Confidence points lost per second of cache age, on every reuse. */
  const ConfidenceDecayRate: real := 20.0
  /** Seconds without stable faces before "No face detected" is shown. */
  const NoFaceDelay: real := 2.0
  const StabilityBufferSize: nat := 2
  const StableFaceThreshold: nat := 1
  /** The working blink threshold as a share of the calibrated baseline. */
  const ThresholdRatio: real := 0.8

  // ---------------------------------------------------------------------
  // Sampling frequencies
  // ---------------------------------------------------------------------

  /** (face detection, verification) frequencies for the measured frame rate:
      a faster loop samples less often. */
  function SamplingFrequencies(currentFps: real): (f: (nat, nat))
    ensures currentFps > 30.0 ==> f == (6, 4)
    ensures 20.0 < currentFps <= 30.0 ==> f == (5, 3)
    ensures currentFps <= 20.0 ==> f == (4, 2)
  {
    if currentFps > 30.0 then (6, 4)
    else if currentFps > 20.0 then (5, 3)
    else (4, 2)
  }

  /** Detection is always rarer than verification, both are at least 2, and a
      higher frame rate never samples more often. */
  lemma SamplingFrequenciesOrdered(fpsLow: real, fpsHigh: real)
    requires fpsLow <= fpsHigh
    ensures var lo, hi := SamplingFrequencies(fpsLow), SamplingFrequencies(fpsHigh);
      && lo.0 > lo.1 >= 2 && hi.0 > hi.1 >= 2
      && lo.0 <= hi.0 && lo.1 <= hi.1
  {
  }

  // ---------------------------------------------------------------------
  // Detection cache
  // ---------------------------------------------------------------------

  /** A face location as (top, right, bottom, left), already in frame coordinates. */
  datatype Box = Box(top: int, right: int, bottom: int, left: int)
  /** A dlib face rectangle. */
  datatype Rect = Rect(left: int, top: int, right: int, bottom: int)
  type Encoding = seq<real>

  datatype FaceCache = FaceCache(
    locations: seq<Box>,
    encodings: seq<Encoding>,
    dlibFaces: seq<Rect>,
    timestamp: real,
    isValid: bool,
    confidence: real)

  const EmptyCache: FaceCache := FaceCache([], [], [], 0.0, false, 0.0)

  /** What a sampled detection pass produced. */
  datatype Detection =
    | NoLocations
    | EncodingFailed
    | Detected(locations: seq<Box>, encodings: seq<Encoding>, dlibFaces: seq<Rect>)

  /** Confidence of a fresh detection of `n` faces. */
  function FreshConfidence(n: nat): (c: real)
    ensures n >= 2 ==> c == 100.0
    ensures n < 2 ==> c == 80.0 + 10.0 * (n as real)
    ensures 80.0 <= c <= 100.0
  {
    var raw := 80.0 + (n as real) * 10.0;
    if raw < 100.0 then raw else 100.0
  }

  /** A detection that yields locations and encodings replaces the cache and
      stamps the last-face time. */
  predicate Refreshes(d: Detection) {
    d.Detected? && |d.locations| > 0 && |d.encodings| > 0
  }

  /** A sampled frame: refresh the cache from the detection, or leave cache
      and display untouched when it found nothing.  Returns whether a face
      counts as present on this frame. */
  function DetectFrame(cache: FaceCache, lastFaceTime: real, d: Detection, now: real): (r: (FaceCache, real, bool))
    ensures r.2 <==> Refreshes(d)
    ensures Refreshes(d) ==>
      r == (FaceCache(d.locations, d.encodings, d.dlibFaces, now, true, FreshConfidence(|d.locations|)), now, true)
    ensures !Refreshes(d) ==> r == (cache, lastFaceTime, false)
  {
    if Refreshes(d) then
      (FaceCache(d.locations, d.encodings, d.dlibFaces, now, true, FreshConfidence(|d.locations|)), now, true)
    else (cache, lastFaceTime, false)
  }

  /** An unsampled frame: the cache stands in while it is valid and younger
      than the lifetime, losing confidence in proportion to its age.  The
      validity flag itself is never cleared here. */
  function ReuseCache(cache: FaceCache, now: real): (r: (FaceCache, bool))
    ensures r.1 <==> cache.isValid && now - cache.timestamp < CacheLifetime
    ensures r.0 == cache.(confidence := r.0.confidence)
    ensures r.1 ==> r.0.confidence >= 0.0
    ensures r.1 && cache.confidence >= 0.0 && now >= cache.timestamp ==> r.0.confidence <= cache.confidence
    ensures r.1 ==> r.0.confidence == 0.0 || r.0.confidence == cache.confidence - (now - cache.timestamp) * ConfidenceDecayRate
    ensures r.1 && cache.confidence - (now - cache.timestamp) * ConfidenceDecayRate >= 0.0 ==>
      r.0.confidence == cache.confidence - (now - cache.timestamp) * ConfidenceDecayRate
    ensures !r.1 ==> r.0 == cache
  {
    var age := now - cache.timestamp;
    if cache.isValid && age < CacheLifetime then
      var decayed := cache.confidence - age * ConfidenceDecayRate;
      (cache.(confidence := if decayed > 0.0 then decayed else 0.0), true)
    else (cache, false)
  }

  /** The cache after unsampled frames at the given times. */
  function ReuseMany(cache: FaceCache, times: seq<real>): FaceCache
    decreases |times|
  {
    if |times| == 0 then cache else ReuseMany(ReuseCache(cache, times[0]).0, times[1..])
  }

  /** Ageing changes only the confidence: a cache once valid stays valid, and
      its faces and timestamp stay those of the last detection, however old it
      gets.  Only a fresh detection replaces it. */
  lemma {:induction false} AgeingKeepsCache(cache: FaceCache, times: seq<real>)
    ensures ReuseMany(cache, times) == cache.(confidence := ReuseMany(cache, times).confidence)
    decreases |times|
  {
    if |times| > 0 {
      AgeingKeepsCache(ReuseCache(cache, times[0]).0, times[1..]);
    }
  }

  // ---------------------------------------------------------------------
  // Stability buffer
  // ---------------------------------------------------------------------

  function CountTrue(b: seq<bool>): (n: nat)
    ensures n <= |b|
  {
    if |b| == 0 then 0 else CountTrue(b[..|b| - 1]) + (if b[|b| - 1] then 1 else 0)
  }

  lemma {:induction false} CountTruePositive(b: seq<bool>)
    ensures CountTrue(b) >= 1 <==> exists i :: 0 <= i < |b| && b[i]
  {
    if |b| > 0 {
      var init := b[..|b| - 1];
      CountTruePositive(init);
      assert forall i :: 0 <= i < |init| ==> init[i] == b[i];
      if !b[|b| - 1] && CountTrue(b) == 0 {
        assert forall i :: 0 <= i < |b| ==> !b[i] by {
          forall i | 0 <= i < |b| ensures !b[i] {
            if i < |init| { assert !init[i]; }
          }
        }
      }
    }
  }

  /** Append this frame's presence and drop the oldest entry beyond two. */
  function PushStability(buffer: seq<bool>, present: bool): (r: seq<bool>)
    ensures |r| == if |buffer| + 1 > StabilityBufferSize then |buffer| else |buffer| + 1
    ensures r == (buffer + [present])[|buffer| + 1 - |r|..]
    ensures |buffer| <= StabilityBufferSize ==> |r| <= StabilityBufferSize
  {
    var appended := buffer + [present];
    if |appended| > StabilityBufferSize then appended[1..] else appended
  }

  predicate HasStableFaces(buffer: seq<bool>) {
    CountTrue(buffer) >= StableFaceThreshold
  }

  /** Faces are stable exactly when this frame or the one before had a face. */
  lemma StableIffRecentFace(buffer: seq<bool>, present: bool)
    requires |buffer| <= StabilityBufferSize
    ensures HasStableFaces(PushStability(buffer, present)) <==> present || (|buffer| > 0 && buffer[|buffer| - 1])
  {
    var r := PushStability(buffer, present);
    CountTruePositive(r);
    assert r[|r| - 1] == present;
    if |buffer| > 0 {
      assert r[|r| - 2] == buffer[|buffer| - 1];
    }
  }

  // ---------------------------------------------------------------------
  // "No face" hysteresis
  // ---------------------------------------------------------------------

  datatype DisplayState = DisplayState(
    hasStableFaces: bool,
    showNoFaceMessage: bool,
    noFaceStartTime: real,
    lastFaceTime: real)

  const InitialDisplay: DisplayState := DisplayState(false, false, 0.0, 0.0)

  /** One frame of the no-face timer; a start time of 0 means "not running". */
  function UpdateNoFace(d: DisplayState, stable: bool, now: real): (r: DisplayState)
    ensures r.hasStableFaces == stable && r.lastFaceTime == d.lastFaceTime
    ensures stable ==> !r.showNoFaceMessage && r.noFaceStartTime == 0.0
    ensures !stable && d.showNoFaceMessage ==> r == d.(hasStableFaces := false)
    ensures !stable && !d.showNoFaceMessage && d.noFaceStartTime == 0.0 ==>
      r.noFaceStartTime == now && !r.showNoFaceMessage
    ensures !stable && !d.showNoFaceMessage && d.noFaceStartTime != 0.0 ==>
      r.noFaceStartTime == d.noFaceStartTime && (r.showNoFaceMessage <==> now - d.noFaceStartTime >= NoFaceDelay)
  {
    var d1 := d.(hasStableFaces := stable);
    if !stable then
      if !d1.showNoFaceMessage then
        if d1.noFaceStartTime == 0.0 then d1.(noFaceStartTime := now)
        else if now - d1.noFaceStartTime >= NoFaceDelay then d1.(showNoFaceMessage := true)
        else d1
      else d1
    else d1.(showNoFaceMessage := false, noFaceStartTime := 0.0)
  }

  /** One frame's stability verdict and clock reading. */
  datatype StabilityTick = StabilityTick(stable: bool, now: real)

  function RunNoFace(d: DisplayState, ticks: seq<StabilityTick>): DisplayState
    decreases |ticks|
  {
    if |ticks| == 0 then d
    else
      var last := ticks[|ticks| - 1];
      UpdateNoFace(RunNoFace(d, ticks[..|ticks| - 1]), last.stable, last.now)
  }

  /** Length of the run of unstable frames that ends the trace. */
  function TrailingUnstable(ticks: seq<StabilityTick>): (k: nat)
    ensures k <= |ticks|
    ensures forall i :: |ticks| - k <= i < |ticks| ==> !ticks[i].stable
    ensures k < |ticks| ==> ticks[|ticks| - 1 - k].stable
  {
    if |ticks| == 0 || ticks[|ticks| - 1].stable then 0
    else TrailingUnstable(ticks[..|ticks| - 1]) + 1
  }

  /** Clock readings are positive and never run backwards. */
  predicate Chronological(ticks: seq<StabilityTick>) {
    && (forall i :: 0 <= i < |ticks| ==> ticks[i].now > 0.0)
    && (forall i :: 0 < i < |ticks| ==> ticks[i - 1].now <= ticks[i].now)
  }

  /** From start-up, the message is shown exactly when the trace ends in a run
      of unstable frames spanning at least the delay; the timer runs from the
      first frame of that run and any stable frame stops it. */
  lemma {:induction false} NoFaceHysteresis(ticks: seq<StabilityTick>)
    requires Chronological(ticks)
    ensures var d := RunNoFace(InitialDisplay, ticks);
      var k := TrailingUnstable(ticks);
      && (k == 0 ==> !d.showNoFaceMessage && d.noFaceStartTime == 0.0)
      && (k > 0 ==>
            && d.noFaceStartTime == ticks[|ticks| - k].now
            && (d.showNoFaceMessage <==> ticks[|ticks| - 1].now - ticks[|ticks| - k].now >= NoFaceDelay))
    decreases |ticks|
  {
    if |ticks| > 0 {
      var init := ticks[..|ticks| - 1];
      assert Chronological(init) by {
        assert forall i :: 0 <= i < |init| ==> init[i] == ticks[i];
      }
      NoFaceHysteresis(init);
      var last := ticks[|ticks| - 1];
      if !last.stable && |init| > 0 && !init[|init| - 1].stable {
        assert TrailingUnstable(ticks) == TrailingUnstable(init) + 1;
        assert init[|init| - TrailingUnstable(init)] == ticks[|ticks| - TrailingUnstable(ticks)];
        assert ticks[|ticks| - 2].now <= last.now;
      }
    }
  }

  // ---------------------------------------------------------------------
  // Whole-frame step (everything before the per-face work)
  // ---------------------------------------------------------------------

  datatype LoopState = LoopState(
    faceDetectionCounter: nat,
    verificationCounter: nat,
    stabilityBuffer: seq<bool>,
    cache: FaceCache,
    display: DisplayState)

  const InitialLoop: LoopState := LoopState(0, 0, [], EmptyCache, InitialDisplay)

  /** Whether this frame's faces go on to recognition, and with which cached
      faces and verification sampling flag. */
  datatype FacePass =
    | Skip
    | Process(shouldVerify: bool, locations: seq<Box>, encodings: seq<Encoding>, dlibFaces: seq<Rect>)

  predicate DetectionDue(ls: LoopState, currentFps: real) {
    (ls.faceDetectionCounter + 1) % SamplingFrequencies(currentFps).0 == 0
  }

  /** One loop iteration up to the per-face work: pick frequencies, detect or
      reuse the cache, update the stability buffer and the no-face timer, and
      decide whether faces are processed (`knownCount` is the number of
      enrolled encodings). */
  function FrameStep(ls: LoopState, currentFps: real, now: real, d: Detection, knownCount: nat): (r: (LoopState, FacePass))
    ensures r.0.faceDetectionCounter == ls.faceDetectionCounter + 1
    ensures var present := if DetectionDue(ls, currentFps) then Refreshes(d) else ReuseCache(ls.cache, now).1;
      r.0.stabilityBuffer == PushStability(ls.stabilityBuffer, present)
    ensures r.0.display.hasStableFaces == HasStableFaces(r.0.stabilityBuffer)
    ensures r.1.Process? <==> knownCount > 0 && r.0.display.hasStableFaces && r.0.cache.isValid
    ensures r.1.Process? ==>
      && r.0.verificationCounter == ls.verificationCounter + 1
      && r.1.shouldVerify == (r.0.verificationCounter % SamplingFrequencies(currentFps).1 == 0)
      && r.1.locations == r.0.cache.locations && r.1.encodings == r.0.cache.encodings
      && r.1.dlibFaces == r.0.cache.dlibFaces
    ensures r.1.Skip? ==> r.0.verificationCounter == ls.verificationCounter
    ensures DetectionDue(ls, currentFps) && Refreshes(d) ==> r.0.cache.timestamp == now && r.0.display.lastFaceTime == now
    ensures !(DetectionDue(ls, currentFps) && Refreshes(d)) ==>
      r.0.cache == ls.cache.(confidence := r.0.cache.confidence) && r.0.display.lastFaceTime == ls.display.lastFaceTime
    ensures DetectionDue(ls, currentFps) ==>
      var (cache, lastFace, _) := DetectFrame(ls.cache, ls.display.lastFaceTime, d, now);
      r.0.cache == cache && r.0.display.lastFaceTime == lastFace
    ensures !DetectionDue(ls, currentFps) ==> r.0.cache == ReuseCache(ls.cache, now).0
    ensures r.0.display == UpdateNoFace(ls.display.(lastFaceTime := r.0.display.lastFaceTime), r.0.display.hasStableFaces, now)
  {
    var (detectFreq, verifyFreq) := SamplingFrequencies(currentFps);
    var counter := ls.faceDetectionCounter + 1;
    var (cache, lastFace, present) :=
      if counter % detectFreq == 0 then DetectFrame(ls.cache, ls.display.lastFaceTime, d, now)
      else
        var (c, p) := ReuseCache(ls.cache, now);
        (c, ls.display.lastFaceTime, p);
    var buffer := PushStability(ls.stabilityBuffer, present);
    var display := UpdateNoFace(ls.display.(lastFaceTime := lastFace), HasStableFaces(buffer), now);
    var ls1 := LoopState(counter, ls.verificationCounter, buffer, cache, display);
    if knownCount == 0 then (ls1, Skip)
    else if display.hasStableFaces && cache.isValid then
      var vc := ls.verificationCounter + 1;
      (ls1.(verificationCounter := vc), Process(vc % verifyFreq == 0, cache.locations, cache.encodings, cache.dlibFaces))
    else (ls1, Skip)
  }

  /** On a frame where no detection is due the detector's output is never
      consulted. */
  lemma DetectionOnlyWhenDue(ls: LoopState, currentFps: real, now: real, d1: Detection, d2: Detection, knownCount: nat)
    requires !DetectionDue(ls, currentFps)
    ensures FrameStep(ls, currentFps, now, d1, knownCount) == FrameStep(ls, currentFps, now, d2, knownCount)
  {
  }

  /** The cache is never invalidated by age, so a frame can still process the
      faces of a detection older than the cache lifetime while the stability
      buffer remembers the last fresh detection. */
  lemma StaleCacheStillProcessed()
    ensures
      var det := Detected([Box(10, 60, 60, 10)], [[0.5]], []);
      var (ls1, p1) := FrameStep(InitialLoop.(faceDetectionCounter := 3), 10.0, 100.0, det, 1);
      var (ls2, p2) := FrameStep(ls1, 10.0, 102.0, NoLocations, 1);
      && p1.Process? && p2.Process?
      && 102.0 - ls2.cache.timestamp >= CacheLifetime
  {
    var det := Detected([Box(10, 60, 60, 10)], [[0.5]], []);
    var ls0 := InitialLoop.(faceDetectionCounter := 3);
    assert DetectionDue(ls0, 10.0);
    var (ls1, p1) := FrameStep(ls0, 10.0, 100.0, det, 1);
    assert ls1.stabilityBuffer == [true];
    CountTruePositive(ls1.stabilityBuffer);
    var (ls2, p2) := FrameStep(ls1, 10.0, 102.0, NoLocations, 1);
    assert !DetectionDue(ls1, 10.0);
    assert ls2.stabilityBuffer == [true, false];
    CountTruePositive(ls2.stabilityBuffer);
  }

  // ---------------------------------------------------------------------
  // Baseline eye-aspect-ratio calibration
  // ---------------------------------------------------------------------

  /** One calibration read: the camera failed, no face was found, or the
      two-eye average aspect ratio of the first face. */
  datatype CalibrationFrame = ReadFailed | NoFace | FaceEar(ear: real)

  function FaceCount(fs: seq<CalibrationFrame>): nat {
    if |fs| == 0 then 0 else FaceCount(fs[..|fs| - 1]) + (if fs[|fs| - 1].FaceEar? then 1 else 0)
  }

  function EarSum(fs: seq<CalibrationFrame>): real {
    if |fs| == 0 then 0.0 else EarSum(fs[..|fs| - 1]) + (if fs[|fs| - 1].FaceEar? then fs[|fs| - 1].ear else 0.0)
  }

  predicate AnyReadFailed(fs: seq<CalibrationFrame>) {
    exists i :: 0 <= i < |fs| && fs[i].ReadFailed?
  }

  /** The baseline a complete calibration yields: the mean over face frames,
      or the default threshold when none had a face. */
  function MeanEar(fs: seq<CalibrationFrame>): real {
    if FaceCount(fs) > 0 then EarSum(fs) / (FaceCount(fs) as real) else Config.EyeArThreshold
  }

  /** `calibrate_baseline_ear` over the frames the camera delivers: a failed
      read aborts with the default threshold. */
  method CalibrateBaselineEar(frames: seq<CalibrationFrame>) returns (baseline: real)
    ensures AnyReadFailed(frames) ==> baseline == Config.EyeArThreshold
    ensures !AnyReadFailed(frames) ==> baseline == MeanEar(frames)
  {
    var totalEar := 0.0;
    var validFrames: nat := 0;
    var i := 0;
    while i < |frames|
      invariant 0 <= i <= |frames|
      invariant !AnyReadFailed(frames[..i])
      invariant totalEar == EarSum(frames[..i])
      invariant validFrames == FaceCount(frames[..i])
    {
      assert frames[..i + 1][..i] == frames[..i];
      match frames[i] {
        case ReadFailed =>
          assert AnyReadFailed(frames);
          return Config.EyeArThreshold;
        case NoFace =>
        case FaceEar(ear) =>
          totalEar := totalEar + ear;
          validFrames := validFrames + 1;
      }
      i := i + 1;
      assert forall j :: 0 <= j < i ==> frames[..i][j] == frames[j];
    }
    assert frames[..i] == frames;
    if validFrames > 0 {
      baseline := totalEar / (validFrames as real);
    } else {
      baseline := Config.EyeArThreshold;
    }
  }

  /** Every face frame's ratio lies in [lo, hi]. */
  predicate EarsWithin(fs: seq<CalibrationFrame>, lo: real, hi: real) {
    forall i :: 0 <= i < |fs| && fs[i].FaceEar? ==> lo <= fs[i].ear <= hi
  }

  lemma {:induction false} EarSumBounds(fs: seq<CalibrationFrame>, lo: real, hi: real)
    requires EarsWithin(fs, lo, hi)
    ensures (FaceCount(fs) as real) * lo <= EarSum(fs) <= (FaceCount(fs) as real) * hi
  {
    if |fs| > 0 {
      var init := fs[..|fs| - 1];
      assert EarsWithin(init, lo, hi) by {
        assert forall i :: 0 <= i < |init| ==> init[i] == fs[i];
      }
      EarSumBounds(init, lo, hi);
    }
  }

  /** The calibrated baseline is a true mean: it lies within the range of the
      observed ratios. */
  lemma MeanEarWithinObserved(fs: seq<CalibrationFrame>, lo: real, hi: real)
    requires EarsWithin(fs, lo, hi) && FaceCount(fs) > 0
    ensures lo <= MeanEar(fs) <= hi
  {
    EarSumBounds(fs, lo, hi);
    QuotientBounds(EarSum(fs), FaceCount(fs) as real, lo, hi);
  }

  lemma QuotientBounds(x: real, n: real, lo: real, hi: real)
    requires n > 0.0 && n * lo <= x <= n * hi
    ensures lo <= x / n <= hi
  {
    var q := x / n;
    assert q * n == x;
  }

  /** The working threshold: 80% of the baseline. */
  function BlinkThreshold(baselineEar: real): (t: real)
    ensures baselineEar > 0.0 ==> 0.0 < t < baselineEar
  {
    baselineEar * ThresholdRatio
  }

  /** Closed frames a blink needs: the calibrated minimum when dynamic
      calibration is on, the legacy count otherwise. */
  const WorkingMinBlinkDuration: nat :=
    if Config.EnableDynamicCalibration then Config.MinBlinkDurationFrames else Config.EyeArConsecFrames
}

=== FILE: outcomes.dfy ===
/** Failure-carrying values shared by every module: the source's `None`
    returns and raised exceptions become `Option` and `Result` values. */
module Outcomes {

  /** An optional value, the model of Python's `None`-or-value. */
  datatype Option<+T> = None | Some(value: T)

  /** Why an operation raised instead of returning. */
  datatype Error =
    | NegativeDistance      // ValueError("face_distance cannot be negative.")
    | DivisionByZero        // ZeroDivisionError from a zero threshold
    | NoEncodings           // ValueError("No face encodings provided for averaging.")
    | InhomogeneousShape    // numpy refusing a ragged list of encodings
    | UnknownCourse         // KeyError from the course table

  /** A value or the error the source would have raised. */
  datatype Result<+T> = Ok(value: T) | Err(error: Error)
}

=== FILE: recognition.dfy ===
/** Match arithmetic of the recognition utilities: distance to percentage,
    the best-match selection over enrolled people, and the mean of a list of
    encodings.  Distances and their medians come from the face library and
    are inputs here. */
module Recognition {
  import opened Outcomes

  /** Default distance threshold of `calculate_accuracy`. */
  const DefaultThreshold: real := 0.6
  /** Default accuracy a match must reach in `recognize_faces`. */
  const DefaultAccuracyThreshold: real := 55.0
  const Unknown: string := "Unknown"

  // ---------------------------------------------------------------------
  // Distance to accuracy
  // ---------------------------------------------------------------------

  /** Python's `round(x, 2)` on an exact value: the nearest hundredth, a tie
      going to the even hundredth. */
  function RoundHundredths(x: real): (r: real)
    ensures -0.005 <= r - x <= 0.005
    ensures (r * 100.0).Floor as real == r * 100.0
    ensures r - x == 0.005 || x - r == 0.005 ==> (r * 100.0).Floor % 2 == 0
  {
    var scaled := x * 100.0;
    var n := scaled.Floor;
    var frac := scaled - n as real;
    var k := if frac > 0.5 then n + 1 else if frac < 0.5 then n else if n % 2 == 0 then n else n + 1;
    assert (k as real / 100.0) * 100.0 == k as real;
    k as real / 100.0
  }

  /** Rounding never reverses an order. */
  lemma RoundMonotone(x: real, y: real)
    requires x <= y
    ensures RoundHundredths(x) <= RoundHundredths(y)
  {
    var nx, ny := (x * 100.0).Floor, (y * 100.0).Floor;
    assert nx <= ny;
    if nx == ny {
      assert x * 100.0 - nx as real <= y * 100.0 - ny as real;
    }
  }

  /** A value already in hundredths is its own rounding. */
  lemma RoundKeepsHundredths(m: int)
    ensures RoundHundredths(m as real / 100.0) == m as real / 100.0
  {
    assert (m as real / 100.0) * 100.0 == m as real;
  }

  /** The unrounded score: 100 at distance 0, falling linearly to 0 at the threshold. */
  function ExactAccuracy(distance: real, threshold: real): (a: real)
    requires threshold > 0.0
    ensures a * threshold == (threshold - distance) * 100.0
    ensures 0.0 <= distance <= threshold ==> 0.0 <= a <= 100.0
  {
    var a := (1.0 - distance / threshold) * 100.0;
    if 0.0 <= distance <= threshold then
      MulNonNegative(a, threshold);
      assert (100.0 - a) * threshold == distance * 100.0;
      MulNonNegative(100.0 - a, threshold);
      a
    else a
  }

  /** `calculate_accuracy`: a negative distance is an error, a distance over
      the threshold scores 0, and otherwise the score falls linearly from 100
      at distance 0 to 0 at the threshold and is rounded to hundredths.  Only
      a zero threshold with a zero distance reaches the division and raises. */
  function CalculateAccuracy(distance: real, threshold: real): (r: Result<real>)
    ensures r == Err(NegativeDistance) <==> distance < 0.0
    ensures r == Err(DivisionByZero) <==> distance == 0.0 && threshold == 0.0
    ensures distance >= 0.0 && distance > threshold ==> r == Ok(0.0)
    ensures distance >= 0.0 && 0.0 < threshold && distance <= threshold ==>
      && r.Ok? && 0.0 <= r.value <= 100.0
      && 0.0 <= ExactAccuracy(distance, threshold) <= 100.0
      && r.value == RoundHundredths(ExactAccuracy(distance, threshold))
  {
    if distance < 0.0 then Err(NegativeDistance)
    else if distance > threshold then Ok(0.0)
    else if threshold == 0.0 then Err(DivisionByZero)
    else
      var accuracy := ExactAccuracy(distance, threshold);
      var clamped := if accuracy < 0.0 then 0.0 else accuracy;
      RoundMonotone(0.0, clamped);
      RoundMonotone(clamped, 100.0);
      RoundKeepsHundredths(0);
      RoundKeepsHundredths(10000);
      Ok(RoundHundredths(clamped))
  }

  /** An exact match scores 100 and a distance equal to the threshold scores 0. */
  lemma AccuracyEndpoints(threshold: real)
    requires threshold > 0.0
    ensures CalculateAccuracy(0.0, threshold) == Ok(100.0)
    ensures CalculateAccuracy(threshold, threshold) == Ok(0.0)
  {
    RoundKeepsHundredths(0);
    RoundKeepsHundredths(10000);
  }

  /** The rounding decides matches at the edge: a distance of 0.270024 scores
      54.996 before rounding, yet its rounded score 55.0 meets the default
      accuracy bar. */
  lemma RoundingReachesBar()
    ensures ExactAccuracy(0.270024, DefaultThreshold) < DefaultAccuracyThreshold
    ensures CalculateAccuracy(0.270024, DefaultThreshold) == Ok(DefaultAccuracyThreshold)
  {
    assert ExactAccuracy(0.270024, DefaultThreshold) == 54.996;
    assert (54.996 * 100.0).Floor == 5499;
  }

  /** A larger distance never scores higher. */
  lemma AccuracyMonotone(d1: real, d2: real, threshold: real)
    requires 0.0 <= d1 <= d2 && threshold > 0.0
    ensures CalculateAccuracy(d1, threshold).Ok? && CalculateAccuracy(d2, threshold).Ok?
    ensures CalculateAccuracy(d1, threshold).value >= CalculateAccuracy(d2, threshold).value
  {
    if d2 <= threshold {
      var a1, a2 := ExactAccuracy(d1, threshold), ExactAccuracy(d2, threshold);
      assert (a1 - a2) * threshold == (d2 - d1) * 100.0;
      MulNonNegative(a1 - a2, threshold);
      RoundMonotone(a2, a1);
    }
  }

  lemma MulNonNegative(x: real, y: real)
    requires y > 0.0 && x * y >= 0.0
    ensures x >= 0.0
  {
  }

  // ---------------------------------------------------------------------
  // Best-match selection
  // ---------------------------------------------------------------------

  /** The outcome for one detected face. */
  datatype Match = Match(name: string, course: string, semester: string, accuracy: real)

  const NoMatch: Match := Match(Unknown, Unknown, Unknown, 0.0)

  /** Median distance from the face to each enrolled person's encodings;
      `None` for a person with no encodings, whom the search skips. */
  type Medians = seq<Option<real>>

  predicate NoCandidateBefore(medians: Medians, n: nat)
    requires n <= |medians|
  {
    forall j :: 0 <= j < n ==> medians[j].None?
  }

  predicate NegativeAt(medians: Medians, j: nat)
    requires j < |medians|
  {
    medians[j].Some? && medians[j].value < 0.0
  }

  /** `b` is the first index among the first `n` whose median is the smallest. */
  predicate FirstMinimumWithin(medians: Medians, n: nat, b: nat)
    requires n <= |medians|
  {
    && b < n
    && medians[b].Some?
    && (forall j :: 0 <= j < n && medians[j].Some? ==> medians[b].value <= medians[j].value)
    && (forall j :: 0 <= j < b && medians[j].Some? ==> medians[j].value > medians[b].value)
  }

  /** At most one index is the first smallest. */
  lemma FirstMinimumUnique(medians: Medians, a: nat, b: nat)
    requires FirstMinimumWithin(medians, |medians|, a) && FirstMinimumWithin(medians, |medians|, b)
    ensures a == b
  {
  }

  /** The selection loop of `recognize_faces` for one face: keep the person
      with the strictly smallest median (so the earliest wins a tie), score
      that distance with the default threshold, and answer "Unknown" for all
      three fields when the score is below `accuracyThreshold`.  A negative
      median makes the scoring raise. */
  method SelectMatch(medians: Medians, names: seq<string>, courses: seq<string>, semesters: seq<string>,
                     accuracyThreshold: real) returns (r: Result<Match>)
    requires |names| == |medians| && |courses| == |medians| && |semesters| == |medians|
    ensures r.Err? <==> exists j :: 0 <= j < |medians| && NegativeAt(medians, j)
    ensures r.Err? ==> r.error == NegativeDistance
    ensures r.Ok? && NoCandidateBefore(medians, |medians|) ==> r.value == NoMatch
    ensures r.Ok? && !NoCandidateBefore(medians, |medians|) ==>
      exists b: nat :: FirstMinimumWithin(medians, |medians|, b)
        && CalculateAccuracy(medians[b].value, DefaultThreshold) == Ok(r.value.accuracy)
        && (r.value.accuracy < accuracyThreshold ==> r.value == Match(Unknown, Unknown, Unknown, r.value.accuracy))
        && (r.value.accuracy >= accuracyThreshold ==> r.value == Match(names[b], courses[b], semesters[b], r.value.accuracy))
  {
    var best: Option<nat> := None;
    var name, course, semester, accuracy := Unknown, Unknown, Unknown, 0.0;
    var i := 0;
    while i < |medians|
      invariant 0 <= i <= |medians|
      invariant forall j :: 0 <= j < i ==> !NegativeAt(medians, j)
      invariant best.None? <==> NoCandidateBefore(medians, i)
      invariant best.None? ==> name == Unknown && course == Unknown && semester == Unknown && accuracy == 0.0
      invariant best.Some? ==>
        && FirstMinimumWithin(medians, i, best.value)
        && medians[best.value].value >= 0.0
        && CalculateAccuracy(medians[best.value].value, DefaultThreshold) == Ok(accuracy)
        && name == names[best.value] && course == courses[best.value] && semester == semesters[best.value]
    {
      match medians[i] {
        case None =>
        case Some(m) =>
          if best.None? || m < medians[best.value].value {
            var scored := CalculateAccuracy(m, DefaultThreshold);
            if scored.Err? {
              assert NegativeAt(medians, i);
              return Err(scored.error);
            }
            best := Some(i);
            name, course, semester, accuracy := names[i], courses[i], semesters[i], scored.value;
          }
      }
      i := i + 1;
    }
    if accuracy < accuracyThreshold {
      name, course, semester := Unknown, Unknown, Unknown;
    }
    r := Ok(Match(name, course, semester, accuracy));
  }

  // ---------------------------------------------------------------------
  // Mean of encodings
  // ---------------------------------------------------------------------

  /** Every encoding has at least `n` components. */
  predicate AllLongerThan(encodings: seq<seq<real>>, n: nat) {
    forall k :: 0 <= k < |encodings| ==> n <= |encodings[k]|
  }

  /** Sum of the `j`-th components, first to last. */
  function ColumnSum(encodings: seq<seq<real>>, j: nat): real
    requires AllLongerThan(encodings, j + 1)
  {
    if |encodings| == 0 then 0.0
    else ColumnSum(encodings[..|encodings| - 1], j) + encodings[|encodings| - 1][j]
  }

  /** All encodings have the same length, as numpy needs to stack them. */
  predicate Rectangular(encodings: seq<seq<real>>) {
    forall k :: 0 <= k < |encodings| ==> |encodings[k]| == |encodings[0]|
  }

  /** `compute_average_encoding`: the component-wise mean of a non-empty list
      of equally long encodings; an empty list raises, and so does a ragged
      one when numpy stacks it. */
  function MeanEncoding(encodings: seq<seq<real>>): (r: Result<seq<real>>)
    ensures |encodings| == 0 <==> r == Err(NoEncodings)
    ensures |encodings| > 0 && !Rectangular(encodings) <==> r == Err(InhomogeneousShape)
    ensures r.Ok? ==> Rectangular(encodings) && |r.value| == |encodings[0]| && AllLongerThan(encodings, |r.value|)
    ensures r.Ok? ==> forall j :: 0 <= j < |r.value| ==> r.value[j] * (|encodings| as real) == ColumnSum(encodings, j)
  {
    if |encodings| == 0 then Err(NoEncodings)
    else if !Rectangular(encodings) then Err(InhomogeneousShape)
    else
      var n := |encodings| as real;
      Ok(seq(|encodings[0]|, j requires 0 <= j < |encodings[0]| => ColumnSum(encodings, j) / n))
  }

  /** The column sum of `n` copies of one encoding is `n` times its component. */
  lemma {:induction false} ColumnSumOfCopies(v: seq<real>, n: nat, j: nat)
    requires j < |v|
    ensures AllLongerThan(seq(n, _ => v), j + 1)
    ensures ColumnSum(seq(n, _ => v), j) == (n as real) * v[j]
  {
    if n > 0 {
      ColumnSumOfCopies(v, n - 1, j);
      assert seq(n, _ => v)[..n - 1] == seq(n - 1, _ => v);
    }
  }

  /** Averaging copies of one encoding gives that encoding back. */
  lemma MeanOfCopies(v: seq<real>, n: nat)
    requires n > 0
    ensures MeanEncoding(seq(n, _ => v)) == Ok(v)
  {
    var encodings := seq(n, _ => v);
    var r := MeanEncoding(encodings);
    assert Rectangular(encodings);
    forall j | 0 <= j < |v|
      ensures r.value[j] == v[j]
    {
      ColumnSumOfCopies(v, n, j);
    }
    assert r.value == v;
  }
}

=== FILE: registration.dfy ===
/** Helpers of the registration window: the component-wise mean of the
    captured encodings, the semester list offered for a course, and the order
    in which the detail form is validated. */
module Registration {
  import opened Outcomes
  import Recognition

  // ---------------------------------------------------------------------
  // Average encoding
  // ---------------------------------------------------------------------

  /** Length of the shortest encoding, where `zip` stops. */
  function MinLength(encodings: seq<seq<real>>): (n: nat)
    requires |encodings| > 0
    ensures Recognition.AllLongerThan(encodings, n)
    ensures exists k :: 0 <= k < |encodings| && |encodings[k]| == n
  {
    if |encodings| == 1 then |encodings[0]|
    else
      var rest := MinLength(encodings[1..]);
      assert forall k :: 1 <= k < |encodings| ==> encodings[k] == encodings[1..][k - 1];
      if |encodings[0]| <= rest then |encodings[0]| else rest
  }

  /** `compute_average_encoding`: the mean of the `j`-th components for every
      position `j` that all encodings have; an empty list raises. */
  function ComputeAverageEncoding(encodings: seq<seq<real>>): (r: Result<seq<real>>)
    ensures |encodings| == 0 <==> r == Err(NoEncodings)
    ensures r.Ok? ==> |r.value| == MinLength(encodings) && Recognition.AllLongerThan(encodings, |r.value|)
    ensures r.Ok? ==> forall j :: 0 <= j < |r.value| ==>
      r.value[j] * (|encodings| as real) == Recognition.ColumnSum(encodings, j)
  {
    if |encodings| == 0 then Err(NoEncodings)
    else
      var n := MinLength(encodings);
      var count := |encodings| as real;
      Ok(seq(n, j requires 0 <= j < n => Recognition.ColumnSum(encodings, j) / count))
  }

  /** On equally long encodings this list-based mean agrees with the numpy
      mean of the recognition utilities; on ragged ones it truncates where
      the numpy one raises. */
  lemma AveragesAgree(encodings: seq<seq<real>>)
    requires |encodings| > 0
    ensures Recognition.Rectangular(encodings) ==> ComputeAverageEncoding(encodings) == Recognition.MeanEncoding(encodings)
    ensures !Recognition.Rectangular(encodings) ==>
      ComputeAverageEncoding(encodings).Ok? && Recognition.MeanEncoding(encodings) == Err(InhomogeneousShape)
  {
    if Recognition.Rectangular(encodings) {
      var a, b := ComputeAverageEncoding(encodings).value, Recognition.MeanEncoding(encodings).value;
      assert |a| == |b|;
      forall j | 0 <= j < |a|
        ensures a[j] == b[j]
      {
        var n := |encodings| as real;
        assert a[j] * n == b[j] * n;
      }
    }
  }

  // ---------------------------------------------------------------------
  // Semester options
  // ---------------------------------------------------------------------

  const CoursePlaceholder: string := "Select Course"
  const SemesterPlaceholder: string := "Select Semester"

  /** The course table: name to duration in years. */
  const Courses: map<string, nat> := map[
    "B.Tech in Civil Engineering" := 4,
    "B.Tech in Computer Science and Engineering" := 4,
    "B.Tech in Electronics and Communication Engineering" := 4,
    "B.Tech in Mechanical Engineering" := 4,
    "B.Tech in Electrical Engineering" := 4,
    "M.Tech in Structural Engineering" := 2,
    "M.Tech in Computer Science and Engineering" := 2,
    "Bachelor Of Computer Application" := 3,
    "B.Sc. in Physics" := 4,
    "B.Sc. in Chemistry" := 4,
    "B.Sc. in Mathematics" := 4,
    "M.Sc. in Physics" := 2,
    "M.Sc. in Chemistry" := 2,
    "M.Sc. in Mathematics" := 2,
    "Bachelor Of Business Administration" := 4
  ]

  predicate IsDigit(c: char) {
    '0' <= c <= '9'
  }

  predicate AllDigits(s: string) {
    forall k :: 0 <= k < |s| ==> IsDigit(s[k])
  }

  function DigitChar(d: nat): (c: char)
    requires d < 10
    ensures IsDigit(c)
  {
    "0123456789"[d]
  }

  /** Decimal form of `n`, as an f-string prints it. */
  function NatToString(n: nat): (s: string)
    ensures |s| > 0 && AllDigits(s)
    ensures s[0] == '0' ==> n == 0
  {
    if n < 10 then [DigitChar(n)]
    else NatToString(n / 10) + [DigitChar(n % 10)]
  }

  /** Value of a string of decimal digits. */
  function DigitsValue(s: string): nat
    requires AllDigits(s)
  {
    if |s| == 0 then 0
    else DigitsValue(s[..|s| - 1]) * 10 + ((s[|s| - 1] as int) - ('0' as int))
  }

  /** Reading back a printed number gives the number. */
  lemma {:induction false} DigitsValueOfNatToString(n: nat)
    ensures DigitsValue(NatToString(n)) == n
  {
    if n >= 10 {
      DigitsValueOfNatToString(n / 10);
      var s := NatToString(n);
      assert s[..|s| - 1] == NatToString(n / 10);
    }
  }

  /** Ordinal suffix of the semester label: only 1, 2 and 3 are special. */
  function OrdinalSuffix(i: nat): (s: string)
    ensures |s| == 2
    ensures i == 1 ==> s == "st"
    ensures i == 2 ==> s == "nd"
    ensures i == 3 ==> s == "rd"
    ensures i != 1 && i != 2 && i != 3 ==> s == "th"
  {
    if i == 1 then "st" else if i == 2 then "nd" else if i == 3 then "rd" else "th"
  }

  const SemesterWord: string := " Semester"

  function SemesterLabel(i: nat): string {
    NatToString(i) + OrdinalSuffix(i) + SemesterWord
  }

  /** The number a semester label begins with. */
  function SemesterNumber(text: string): Option<nat> {
    if |text| < 11 || !AllDigits(text[..|text| - 11]) then None
    else Some(DigitsValue(text[..|text| - 11]))
  }

  /** Every label gives back its own number, so no two labels coincide. */
  lemma SemesterNumberOfLabel(i: nat)
    ensures SemesterNumber(SemesterLabel(i)) == Some(i)
  {
    var digits := NatToString(i);
    var text := digits + OrdinalSuffix(i) + SemesterWord;
    assert |SemesterWord| == 9;
    assert text[..|digits|] == digits;
    DigitsValueOfNatToString(i);
  }

  /** A label ends in its number's suffix and the word " Semester". */
  lemma LabelEnding(i: nat)
    ensures |SemesterLabel(i)| >= 11 && SemesterLabel(i)[|SemesterLabel(i)| - 11..] == OrdinalSuffix(i) + SemesterWord
  {
    assert SemesterLabel(i) == NatToString(i) + (OrdinalSuffix(i) + SemesterWord);
  }

  /** The labels offered for a course of `years` years: semesters 1 to 2 y. */
  function SemesterLabels(years: nat): (labels: seq<string>)
    ensures |labels| == 2 * years
    ensures forall k :: 0 <= k < |labels| ==> labels[k] == NatToString(k + 1) + OrdinalSuffix(k + 1) + SemesterWord
    ensures forall k :: 0 <= k < |labels| ==> SemesterNumber(labels[k]) == Some(k + 1)
    ensures forall k :: 0 <= k < |labels| ==>
      |labels[k]| >= 11 && labels[k][|labels[k]| - 11..] == OrdinalSuffix(k + 1) + SemesterWord
  {
    var labels := seq(2 * years, k requires 0 <= k < 2 * years => SemesterLabel(k + 1));
    assert forall k :: 0 <= k < |labels| ==>
      SemesterNumber(labels[k]) == Some(k + 1) && labels[k][|labels[k]| - 11..] == OrdinalSuffix(k + 1) + SemesterWord
    by {
      forall k | 0 <= k < |labels|
        ensures SemesterNumber(labels[k]) == Some(k + 1)
        ensures labels[k][|labels[k]| - 11..] == OrdinalSuffix(k + 1) + SemesterWord
      {
        SemesterNumberOfLabel(k + 1);
        LabelEnding(k + 1);
      }
    }
    labels
  }

  /** Semester labels are pairwise different. */
  lemma SemesterLabelsDistinct(years: nat, a: nat, b: nat)
    requires a < b < 2 * years
    ensures SemesterLabels(years)[a] != SemesterLabels(years)[b]
  {
    assert SemesterNumber(SemesterLabels(years)[a]) != SemesterNumber(SemesterLabels(years)[b]);
  }

  /** The semester dropdown after a course is picked. */
  datatype SemesterDropdown = SemesterDropdown(values: seq<string>, selection: string, enabled: bool)

  /** `update_semester_options`: the values are cleared and the selection
      reset first; then the placeholder course disables the list, a listed
      course offers its semesters read-only, and any other course raises from
      the table lookup, leaving the cleared list in its previous state. */
  function UpdateSemesterOptions(before: SemesterDropdown, selectedCourse: string): (r: (SemesterDropdown, Option<Error>))
    ensures r.0.selection == SemesterPlaceholder
    ensures selectedCourse == CoursePlaceholder ==> r == (SemesterDropdown([], SemesterPlaceholder, false), None)
    ensures selectedCourse != CoursePlaceholder && selectedCourse !in Courses <==> r.1 == Some(UnknownCourse)
    ensures r.1 == Some(UnknownCourse) ==> r.0 == SemesterDropdown([], SemesterPlaceholder, before.enabled)
    ensures selectedCourse != CoursePlaceholder && selectedCourse in Courses ==>
      && r.1.None? && r.0.enabled
      && |r.0.values| == 2 * Courses[selectedCourse]
      && forall k :: 0 <= k < |r.0.values| ==> SemesterNumber(r.0.values[k]) == Some(k + 1)
    ensures selectedCourse != CoursePlaceholder && selectedCourse in Courses ==>
      r.0.values == SemesterLabels(Courses[selectedCourse])
  {
    var cleared := before.(values := [], selection := SemesterPlaceholder);
    if selectedCourse == CoursePlaceholder then (cleared.(enabled := false), None)
    else if selectedCourse !in Courses then (cleared, Some(UnknownCourse))
    else (cleared.(values := SemesterLabels(Courses[selectedCourse]), enabled := true), None)
  }

  /** A two-year course offers four semesters, the first labelled "1st Semester". */
  lemma TwoYearCourseScenario(before: SemesterDropdown)
    ensures UpdateSemesterOptions(before, "M.Sc. in Physics").1.None?
    ensures |UpdateSemesterOptions(before, "M.Sc. in Physics").0.values| == 4
    ensures UpdateSemesterOptions(before, "M.Sc. in Physics").0.values[0] == "1st Semester"
  {
    assert "M.Sc. in Physics" in Courses;
    assert NatToString(1) == "1";
  }

  // ---------------------------------------------------------------------
  // Detail form
  // ---------------------------------------------------------------------

  /** Characters Python's `str.strip()` removes. */
  predicate IsWhitespace(c: char) {
    || c == ' ' || c == '\t' || c == '\n' || c == '\r' || c == '\U{000B}' || c == '\U{000C}'
    || ('\U{001C}' <= c <= '\U{001F}') || c == '\U{0085}' || c == '\U{00A0}' || c == '\U{1680}'
    || ('\U{2000}' <= c <= '\U{200A}') || c == '\U{2028}' || c == '\U{2029}' || c == '\U{202F}'
    || c == '\U{205F}' || c == '\U{3000}'
  }

  /** Index of the first character at or after `lo` that is not whitespace. */
  function SkipSpace(s: string, lo: nat): (i: nat)
    requires lo <= |s|
    ensures lo <= i <= |s|
    ensures forall k :: lo <= k < i ==> IsWhitespace(s[k])
    ensures i < |s| ==> !IsWhitespace(s[i])
    decreases |s| - lo
  {
    if lo == |s| || !IsWhitespace(s[lo]) then lo else SkipSpace(s, lo + 1)
  }

  /** End of `s` once trailing whitespace after `lo` is dropped. */
  function TrimEnd(s: string, lo: nat, hi: nat): (j: nat)
    requires lo <= hi <= |s|
    ensures lo <= j <= hi
    ensures forall k :: j <= k < hi ==> IsWhitespace(s[k])
    ensures j > lo ==> !IsWhitespace(s[j - 1])
    decreases hi
  {
    if hi == lo || !IsWhitespace(s[hi - 1]) then hi else TrimEnd(s, lo, hi - 1)
  }

  /** `str.strip()`: drop leading and trailing whitespace. */
  function Strip(s: string): (t: string)
    ensures exists i, j :: (0 <= i <= j <= |s| && t == s[i..j]
      && (forall k :: 0 <= k < i ==> IsWhitespace(s[k]))
      && (forall k :: j <= k < |s| ==> IsWhitespace(s[k])))
    ensures |t| > 0 ==> !IsWhitespace(t[0]) && !IsWhitespace(t[|t| - 1])
    ensures |t| == 0 <==> forall k :: 0 <= k < |s| ==> IsWhitespace(s[k])
  {
    var i := SkipSpace(s, 0);
    var j := TrimEnd(s, i, |s|);
    s[i..j]
  }

  datatype Details = Details(name: string, course: string, semester: string, rollNumber: string)

  /** What the form shows after "Set Details" is pressed. */
  datatype DetailsOutcome =
    | MissingName
    | MissingCourse
    | MissingSemester
    | MissingRollNumber
    | DuplicateEntry
    | DetailsSet(details: Details)

  /** `set_details`: strip the two typed fields, reject the first missing
      field in the order name, course, semester, roll number, and only then
      ask the database whether the entry already exists. */
  function SetDetails(nameEntry: string, course: string, semester: string, rollEntry: string,
                      isDuplicate: Details -> bool): (r: DetailsOutcome)
    ensures Strip(nameEntry) == [] <==> r == MissingName
    ensures r == MissingCourse <==> Strip(nameEntry) != [] && course == CoursePlaceholder
    ensures r == MissingSemester <==> Strip(nameEntry) != [] && course != CoursePlaceholder && semester == SemesterPlaceholder
    ensures r == MissingRollNumber <==>
      Strip(nameEntry) != [] && course != CoursePlaceholder && semester != SemesterPlaceholder && Strip(rollEntry) == []
    ensures r.DuplicateEntry? || r.DetailsSet? <==>
      Strip(nameEntry) != [] && course != CoursePlaceholder && semester != SemesterPlaceholder && Strip(rollEntry) != []
    ensures r.DetailsSet? ==> r.details == Details(Strip(nameEntry), course, semester, Strip(rollEntry)) && !isDuplicate(r.details)
    ensures r.DuplicateEntry? ==> isDuplicate(Details(Strip(nameEntry), course, semester, Strip(rollEntry)))
  {
    var name := Strip(nameEntry);
    var rollNumber := Strip(rollEntry);
    if name == [] then MissingName
    else if course == CoursePlaceholder then MissingCourse
    else if semester == SemesterPlaceholder then MissingSemester
    else if rollNumber == [] then MissingRollNumber
    else
      var details := Details(name, course, semester, rollNumber);
      if isDuplicate(details) then DuplicateEntry else DetailsSet(details)
  }
}

=== FILE: seqs.dfy ===
/** Sequence helpers shared by the models. */
module Seqs {
  /** The last `n` elements of `s`, or all of `s` when it is shorter: the
      history slice `[-n:]` and pandas' `tail(n)` for a positive `n`. */
  function Last<T>(s: seq<T>, n: nat): (r: seq<T>)
    ensures |r| == if |s| < n then |s| else n
    ensures r == s[|s| - |r|..]
  {
    if |s| <= n then s else s[|s| - n..]
  }
}
